=== FILE: README.md ===
# droid-mcp-rs core, modelled in Dafny

droid-mcp-rs is an MCP server with one tool, `droid`. The tool runs the Factory
`droid exec` agent on a prompt, reads the agent's JSON event stream and returns
a summary:
- whether the run succeeded;
- the session id to resume it with;
- the agent's visible text, and an archive of the raw events;
- an error and warnings.

This project models the logic of that tool as pure functions over values that
have already been decoded, and proves properties about them:

- **Request validation** (`Server`, `src/server.rs`). `DroidServer::droid` turns
  the tool arguments into execution options or refuses them. It checks that
  exactly one of prompt and file is given, that the unsafe permission switch
  is not combined with an autonomy level, the working directory and file
  paths, and the allowed values. Empty strings are dropped along the way.
- **Configuration** (`Config`). The configuration covers:
  - the execution defaults document, with its extra arguments trimmed and
    blank ones dropped;
  - the default timeout and the default autonomy level;
  - the custom model registry, with the default model (the first GPT entry,
    else the first entry);
  - the resolution of `custom:<name>-<index>` references by `get_model_info`.
- **Context file** (`DroidMd`, over `Utf8`). `read_droid_md` decides what to
  do with `DROID.md`: skip it above 10 MiB, read at most 1 MiB + 4 bytes, and
  cut it back to the last UTF-8 character boundary within 1 MiB. The prompt
  is then wrapped in `<system_prompt>` tags.
- **Command line** (`Launch`). The arguments of `droid exec` are built from
  the options. The partner of the builder is a reader: a parser with the
  same flag vocabulary reads the argument vector back, and gets every
  option that was set under its own flag.
- **Stream fold** (`Stream`). Each stdout line goes through one step:
  - the first non-empty session id wins;
  - an `error` event fails the run and replaces the message;
  - the agent text grows within a 10 MiB cap, with a truncation marker;
  - a 50 MiB archive of raw events.

  A stderr buffer is kept separately, capped at 100 000 bytes.
- **Verdict** (`Verdict`). The exit status, the session id and the agent
  text decide success and the error.
- **Orchestration** (`Supervisor`). `run` and `run_internal` cover:
  - the defaults for model, autonomy level and timeout;
  - the timeout clamp;
  - the gate that refuses the "high" autonomy level when the configuration
    forbids it;
  - the result when the clock wins;
  - the launch failures;
  - the composition of all of the above.

Several things are parameters of the model rather than computed by it:
- the environment (configuration documents, model registry, `DROID_BIN`,
  platform);
- the file system as the validator sees it;
- the bytes of `DROID.md`;
- the child process (its stdout lines, stderr lines and exit status);
- the outcome of the race against the clock.

Strings are sequences of Unicode scalar values. Rust's byte lengths are
`Utf8.Utf8Len`, the sum of the characters' UTF-8 widths.

Where the code and its documentation disagree, the model follows the code:
- An `error` event replaces any earlier error message.
- The "No session_id received from droid" rule replaces any earlier error.
- The archive and the stderr buffer still take a later, smaller item after
  one was turned away. Neither is a prefix of the stream
  (`Stream.ArchiveKeepsLaterSmallerObject`).
- A configured `max_timeout_secs` is used as it is and may exceed 3600
  (`Supervisor.ConfiguredMaximumCanExceedAnHour`).
- An `error` event without a `message`, in a stream where some event names
  a session, followed by a clean exit, gives a failed result with no error
  text. This is the only way to get a failure without error text
  (`Verdict.FailureWithoutErrorExactly`, with the concrete case
  `Verdict.FailureWithoutError`).
- The agent-text cap compares the current length plus the new fragment. The
  `'\n'` separator is not counted, so the open text can reach the cap plus
  one byte. The bound proved is exactly that (`Stream.AgentBounded`).
- `allow_high_autonomy` is true in the built-in configuration. A parsed
  configuration file that omits the key gets false.
- Skipping permissions does not bypass the high-autonomy gate. With no level
  requested or configured, the default "high" is refused when the
  configuration disables it, although that level would never be put on the
  command line (`Supervisor.SkipPermissionsStillGated`).
- `skip_permissions_unsafe` is refused next to any `auto`, even an empty one,
  because that check runs before empty strings are dropped
  (`Server.EmptyAutoNextToSkip`).

## Model

| member | source | states |
|---|---|---|
| `Common.Trim` | src/droid.rs:119 | Trimming only shortens, and the result neither starts nor ends with whitespace. |
| `Common.TrimSpec` | src/droid.rs:119 | What trimming removes is whitespace on both sides of a slice of the input. |
| `Common.TrimEmptyIffBlank` | src/droid.rs:426 | `trim().is_empty()` holds exactly for all-whitespace strings. |
| `Common.TrimIdempotent` | src/droid.rs:119 | Trimming twice is trimming once. |
| `Common.LastIndexOf` | src/droid.rs:314 | The split point of `rsplit_once('-')`: the character is there, and none follows it; absent exactly when the character does not occur. |
| `Common.ReplaceChar` | src/droid.rs:267 | `replace(' ', "-")` keeps the length and changes exactly the spaces, so no space remains. |
| `Common.NatToString` | src/droid.rs:268 | Decimal rendering: non-empty, all digits, no leading zero. |
| `Common.ParseUsize` | src/droid.rs:315 | `parse::<usize>` accepts exactly an optional `+` followed by one or more digits. |
| `Common.ParseNatToString` | src/droid.rs:264-269 | Parsing a rendered index gives the index back. |
| `Common.AppendLine` | src/droid.rs:546-552 | Warnings are joined with a newline, and an absent side leaves the other unchanged. |
| `Utf8.Utf8LenConcat` | src/droid.rs:714 | Byte length is additive over concatenation. |
| `Utf8.Utf8LenAtLeastLength` | src/droid.rs:723 | A string is empty exactly when its byte length is 0, and it has at least one byte per character. |
| `Utf8.Encode` | src/droid.rs:447 | The encoding of a string is as long as its byte length. |
| `Utf8.Decode` | src/droid.rs:447-448 | Decoding well-formed bytes gives text whose byte length is the number of bytes. |
| `Utf8.EncodeDecode` | src/droid.rs:447-448 | Decoding, then encoding, gives back the same well-formed bytes. |
| `Utf8.DecodeEncode` | src/droid.rs:447-448 | Every string encodes to well-formed bytes that decode back to it. |
| `Utf8.EncodeDecodeHead` | src/droid.rs:435 | Encoding the decoded first character gives exactly its head bytes. |
| `Utf8.DecodeEncodeChar` | src/droid.rs:435 | An encoded character is a well-formed head of its width that decodes back to it. |
| `Utf8.ValidConcat` | src/droid.rs:435 | Two well-formed byte sequences joined are well-formed. |
| `Utf8.BoundaryNear` | src/droid.rs:433-443 | In well-formed bytes, some well-formed prefix ends within three bytes below any cut point. |
| `Config.CleanArgs` | src/droid.rs:115-121 | The cleaned extra arguments are no more than the originals, and each is non-empty with no whitespace at either end. |
| `Config.CleanArgsSingle` | src/droid.rs:119-120 | One argument is dropped when blank and otherwise kept trimmed. |
| `Config.CleanArgsConcat` | src/droid.rs:116-121 | Cleaning works argument by argument: cleaning a concatenation is the concatenation of the cleanings, so order and repetitions are kept. |
| `Config.CleanArgIffTrimmed` | src/droid.rs:119-120 | The clean arguments are exactly the non-empty strings that trimming leaves alone. |
| `Config.CleanArgsKeepsNonBlank` | src/droid.rs:115-121 | Every argument that is not blank survives cleaning, in trimmed form. |
| `Config.CleanArgsOnlyTrims` | src/droid.rs:115-121 | Everything cleaning keeps is the trimmed form of some argument. |
| `Config.CleanArgsIdempotent` | src/droid.rs:115-121 | Cleaning twice is cleaning once. |
| `Config.LoadServerConfig` | src/droid.rs:95-142 | With no usable document the built-in defaults apply; otherwise the parsed document with cleaned arguments, none of them blank. |
| `Config.DefaultTimeout` | src/droid.rs:153-163 | The default timeout is in 1..=3600: a configured value in range as given, a larger one 3600, an absent or zero one 600. |
| `Config.DefaultTimeoutIdempotent` | src/droid.rs:153-163 | Configuring the default timeout reproduces it. |
| `Config.DefaultAuto` | src/droid.rs:244-253 | The default autonomy level is never blank: the configured one when not blank, otherwise "high". |
| `Config.CustomIndex` | src/droid.rs:310-315 | An index is read only from a reference that holds a `-` after the prefix. |
| `Config.CustomIndexOfModelRef` | src/droid.rs:264-269 | A reference built for entry `idx` resolves to `idx` again, whatever hyphens or spaces the display name holds. |
| `Config.TrailingNumberReadAsIndex` | src/droid.rs:314-315 | The last-hyphen rule reads "custom:GPT-4" as entry 4. |
| `Config.FirstGpt` | src/droid.rs:260-271 | The first registry entry whose display name or model mentions "gpt" in any case: no earlier entry does, and none at all when absent. |
| `Config.DefaultModel` | src/droid.rs:256-286 | No default exactly when the registry is empty; otherwise the reference to the first GPT entry, else to entry 0. |
| `Config.GetModelInfo` | src/droid.rs:289-346 | Some display is always given. A resolvable custom reference describes its entry with no warning. An unresolvable one falls back to the first entry's description, warning about the reference followed by "Fallback to:" and that description. With an empty registry it shows the Factory default model with the bare warning. A plain model name is shown as given. No model with no registry warns. |
| `Config.DefaultModelResolves` | src/droid.rs:256-346 | The default model resolves to the chosen entry and raises no warning. |
| `DroidMd.LastValidEnd` | src/droid.rs:433-443 | The downward search finds the largest end within the limit whose prefix is well-formed. |
| `DroidMd.Truncate` | src/droid.rs:432-446 | Over-long content is cut at the last well-formed end within 1 MiB, with the truncation warning. It is skipped with the invalid-UTF-8 warning exactly when no non-empty prefix within 1 MiB is well-formed. |
| `DroidMd.Whole` | src/droid.rs:447-454 | Content within the limit is used whole exactly when it is well-formed, otherwise skipped with the warning. |
| `DroidMd.Examine` | src/droid.rs:419-454 | Empty content gives nothing. Kept text is non-empty, within 1 MiB, and encodes to a prefix of the content. Content within 1 MiB is used whole with no warning when well-formed and not a blank whole file, and skipped with the UTF-8 warning when ill-formed. Content above 1 MiB with no well-formed non-empty prefix within 1 MiB gets exactly the UTF-8 warning. Content that is skipped silently was short enough to read whole and blank. |
| `DroidMd.LongContentHasBoundary` | src/droid.rs:432-443 | Well-formed content above 1 MiB has a non-empty well-formed prefix within 1 MiB. |
| `DroidMd.ReadDroidMd` | src/droid.rs:376-455 | A missing file gives nothing, and a file above 10 MiB gives only the too-large warning. A failure to read the metadata, to open the file or to read it gives only the matching "Failed to …: <error>" warning. Text is kept only from a readable file, within 1 MiB, as a prefix of its bytes. |
| `DroidMd.IllFormedHeadWarns` | src/droid.rs:401-446 | A readable file above 1 MiB (within 10 MiB) with no well-formed boundary in its first 1 MiB gives no text and only the UTF-8 warning. |
| `DroidMd.SmallFileUsedWhole` | src/droid.rs:401-454 | A readable file of at most 1 MiB is used whole when well-formed and not blank, skipped silently when blank, and skipped with the UTF-8 warning when ill-formed. |
| `DroidMd.ExamineKeepsBoundary` | src/droid.rs:432-443 | Truncation never stops before any well-formed boundary within the limit. |
| `DroidMd.TruncationKeepsNearlyAll` | src/droid.rs:393-446 | A well-formed file of 1 to 10 MiB is cut to between 1 MiB − 3 bytes and 1 MiB, with the truncation warning. Otherwise it is short, blank and skipped silently. |
| `DroidMd.ComposePrompt` | src/droid.rs:468-479 | The prompt ends with the caller's text, preceded by the context in `<system_prompt>` tags when there is one. |
| `Launch.SpellingsRecognised` | src/droid.rs:558-617 | Each flag spelling is recognised as its own flag and as nothing else. |
| `Launch.Command` | src/droid.rs:556-617 | The command line starts with the output format and the working directory, and ends with the file flag or the prompt. |
| `Launch.Argv` | src/droid.rs:556-617 | The vector starts `exec -o <format, default stream-json> --cwd <dir>`, and ends with the prompt or with `--file <path>`. |
| `Launch.ParseRender` | src/droid.rs:556-617 | Reading a rendered unambiguous command line gives the item-by-item view. |
| `Launch.UnambiguousCommand` | src/droid.rs:603-617 | When no extra argument, and no prompt passed as a word, spells a flag, the command line reads unambiguously. |
| `Launch.CommandViewFront` | src/droid.rs:556-586 | Output and directory are always present. `--auto` is carried only without the unsafe switch, `-r` only when set, and `--spec-model` only with `--use-spec`. |
| `Launch.TailViewCarries` | src/droid.rs:588-617 | The tail carries model, tool lists, session and file exactly when set, no other flag, and the extra arguments and prompt as words. |
| `Launch.ArgvReadBack` | src/droid.rs:556-617 | The argument vector reads back to exactly the options: each set option under its own flag, none for an unset one, each switch exactly when on, and the words in order. `--auto` never accompanies the unsafe switch, and `--spec-model` comes only with `--use-spec`. |
| `Stream.RecordSession` | src/droid.rs:695-699 | The first non-empty session id wins. |
| `Stream.Join` | src/droid.rs:723-726 | The newline separator is added exactly when both sides are non-empty. |
| `Stream.AppendText` | src/droid.rs:714-727 | The text ends up truncated exactly when it already was or the current length plus the fragment exceeds the cap. Once truncated, the text is frozen. The marker is appended only on the transition to truncated. Otherwise the fragment is joined on. |
| `Stream.AppendTextBounded` | src/droid.rs:714-727 | Appending keeps the text within the cap plus one separator byte while open, plus the marker once truncated. |
| `Stream.ArchivePush` | src/droid.rs:760-770 | An object is kept when it fits the 50 MiB running size, adding exactly its size. Otherwise only the flag is set, and the size stays consistent with the contents. |
| `Stream.Step` | src/droid.rs:682-771 | One line: blank or malformed lines change nothing. Otherwise each field follows its own rule: session first-wins, success cleared by `error`, error replaced by a message, agent text appended, archive pushed. |
| `Stream.StepKeeps` | src/droid.rs:682-771 | One step keeps frozen text frozen, the size bounds, the archive flag and contents so far, and failure with every error. |
| `Stream.Drain` | src/droid.rs:673-777 | Over the whole stream: a recorded session id is kept; success, truncation flags and the archive only move one way; the size bounds hold. |
| `Stream.DrainConcat` | src/droid.rs:673-777 | Draining two pieces in turn is draining them joined. |
| `Stream.SkippedLineIsInvisible` | src/droid.rs:682-692 | A blank or malformed line can be removed from a stream without changing the drain. |
| `Stream.DrainSessionId` | src/droid.rs:695-699 | The session id is the first non-empty one on the stream, and "" exactly when none is named. |
| `Stream.DrainSuccess` | src/droid.rs:700-704 | The drain stays successful exactly when no line is an `error` event. |
| `Stream.DrainError` | src/droid.rs:700-707 | The error is the message of the last `error` event that has one; without one, the earlier error is kept. |
| `Stream.DrainErrorNone` | src/droid.rs:700-707 | No error is recorded exactly when none was recorded before and no `error` event carries a message. |
| `Stream.DrainAgent` | src/droid.rs:709-757 | The agent text of the drain is the text fold over the stream's fragments. |
| `Stream.TextFoldFrozen` | src/droid.rs:716-722 | Once truncated, the text ignores every later fragment. |
| `Stream.TextFoldFits` | src/droid.rs:714-727 | When nothing overflows, the text is all fragments joined with the separator rule, and the flag stays clear. |
| `Stream.TextFoldOverflow` | src/droid.rs:714-727 | When fragment k is the first to overflow, the text is the fragments before it joined, then the marker, and the flag is set. |
| `Stream.TextFoldEmpty` | src/droid.rs:714-752 | The text is empty exactly when it started empty and every fragment was empty. |
| `Stream.DrainArchive` | src/droid.rs:760-770 | The archive of the drain is the archive fold over the stream's events. |
| `Stream.ArchiveFoldCap` | src/droid.rs:760-770 | The archive is flagged exactly when the objects do not all fit. Without the flag it holds every object, in order, with their total size. |
| `Stream.ArchiveOfStream` | src/droid.rs:675-770 | From empty: the size equals the contents' size and stays within 50 MiB. It is truncated exactly when the stream's objects exceed 50 MiB, and otherwise holds them all. |
| `Stream.ArchiveKeepsLaterSmallerObject` | src/droid.rs:764-769 | After an object is turned away, a later smaller one is still kept. |
| `Stream.StderrPush` | src/droid.rs:660-665 | A stderr line is kept exactly when the buffer stays within 100 000 bytes, and the buffer never exceeds that. |
| `Stream.StderrDrain` | src/droid.rs:653-671 | The collected stderr stays within 100 000 bytes. |
| `Stream.StderrDrainExtends` | src/droid.rs:653-671 | The stderr buffer only grows at its end. |
| `Stream.StderrKeepsAllThatFits` | src/droid.rs:653-671 | While everything fits, the buffer holds every line, in order. |
| `Verdict.CodeDebug` | src/droid.rs:797 | The rendering of the exit code is "None" exactly for a signalled child. |
| `Verdict.ExitError` | src/droid.rs:795-804 | The exit error names the code. With stderr it is the code, `. stderr: ` and the stderr text; without, the code alone. |
| `Verdict.Resolve` | src/droid.rs:792-816 | Success needs stream success, a clean exit, a session id and agent text. A failed exit fills the error only if none was set. A missing session id replaces the error. Empty text fails an otherwise successful run. |
| `Verdict.OutcomeSuccess` | src/droid.rs:673-816 | A run succeeds exactly when the stream has no `error` event, the exit is 0, some event names a session and some agent fragment is non-empty; then there is no error. |
| `Verdict.FailureWithoutError` | src/droid.rs:700-707 | A concrete stream: an `error` event without a message after a session id, then a clean exit, gives failure with no error text. |
| `Verdict.FailureWithoutErrorExactly` | src/droid.rs:700-816 | A run fails without error text exactly when the stream has an `error` event, none of its `error` events carries a message, some event names a session, and the exit is 0. |
| `Supervisor.ResolveDroidBin` | src/droid.rs:365-374 | The binary is `DROID_BIN` trimmed when it is not blank, otherwise the platform default; it is never empty and never padded. |
| `Supervisor.EffectiveTimeout` | src/droid.rs:481-488 | The timeout is the smaller of the requested one (the default when absent) and the configured maximum (3600 when absent). |
| `Supervisor.TimeoutWithinBuiltinLimits` | src/droid.rs:481-488 | Without a configured maximum the timeout is at most 3600, a request within it is honoured, and no request gets the default of at least 1. |
| `Supervisor.ConfiguredMaximumCanExceedAnHour` | src/droid.rs:486-488 | A configured maximum of 7200 lets a 5000-second request through. |
| `Supervisor.TimeoutResult` | src/droid.rs:504-526 | On timeout the result is a failure with nothing collected and "Timeout after N seconds". The warnings are the finished run's (context file, then model) followed by the timeout notice. |
| `Supervisor.CapturedStderr` | src/droid.rs:784-790 | The quoted stderr is what the collector kept, at most 100 000 bytes, or "" when the collector could not be joined. |
| `Supervisor.RunInternal` | src/droid.rs:531-816 | The agent is started with the resolved binary and the built argument vector; no start directory is set, so the working directory reaches it only as `--cwd`, and the spawn error names it. There is a result exactly when the child was spawned and waited for; each earlier failure is an error with its own message. A result carries the merged warnings and the model description, a bounded agent text, and on success a session, text and no error. |
| `Supervisor.Prepare` | src/droid.rs:457-488 | Only the model, autonomy level and timeout get defaults, and nothing else in the options changes. The prompt is composed with the context file. The timeout is the clamped one. |
| `Supervisor.Run` | src/droid.rs:457-530 | A forbidden "high" level is refused before anything runs. Otherwise the clock's win gives the timeout result, and the agent's finish gives `run_internal`'s outcome. |
| `Supervisor.GateIsExact` | src/droid.rs:490-497 | `run` refuses with the configuration message exactly when the level in force is "high" and the configuration forbids it. |
| `Supervisor.SkipPermissionsStillGated` | src/droid.rs:462-497 | With the unsafe switch and no level anywhere, a configuration without high autonomy refuses the run, although the command line would carry no `--auto`. |
| `Supervisor.TimedOutRun` | src/droid.rs:486-526 | When the clock wins, the run fails with the timeout error after at most the maximum, and its warnings end with the timeout notice. |
| `Supervisor.RunInternalSuccess` | src/droid.rs:780-816 | A waited-for child gives a result that succeeds exactly when its output and exit allow it. |
| `Supervisor.FinishedRunSuccess` | src/droid.rs:499-503 | A run that finishes before the clock succeeds exactly when the stream has no `error`, the exit is 0, a session is named and some text is non-empty. |
| `Supervisor.ExitFailureQuotesBoundedStderr` | src/droid.rs:792-806 | A failed exit of a clean stream with a session reports the exit status and at most 100 000 bytes of stderr. |
| `Supervisor.DefaultModelAddsNoWarning` | src/droid.rs:458-460 | With a registry and no requested model, only the context file can contribute a warning. |
| `Server.NonEmpty` | src/server.rs:237-244 | An empty string counts as absent; anything else is kept. |
| `Server.CheckPromptAndFile` | src/server.rs:134-154 | Accepted exactly when one of prompt and file is given and a lone prompt is not blank. Both given is reported as the pair, even with a blank prompt. |
| `Server.ResolveWorkingDir` | src/server.rs:165-206 | A resolved working directory is a directory. A given `cwd` is made absolute and canonicalized, and the canonical path is the result. Without one, it succeeds exactly when the current directory is known and is a directory. |
| `Server.ResolveFile` | src/server.rs:208-234 | A prompt file is resolved against the working directory, must canonicalize, and must be a file. No file gives none. |
| `Server.CheckValues` | src/server.rs:246-292 | Accepted exactly when auto and reasoning effort are low, medium or high when present, and the format is stream-json or stream-jsonrpc when present. An invalid auto is reported first, then an invalid reasoning effort, then an invalid format. |
| `Server.Validate` | src/server.rs:134-311 | The first failing check decides, in the source's order: prompt and file, then the unsafe switch against `auto`, then the working directory, then the file, then the values. Accepted options have exactly one of prompt and file, no blank prompt, no auto with the unsafe switch, allowed values, a directory and a regular file. |
| `Server.ValidateAcceptsExactly` | src/server.rs:134-311 | A request is accepted exactly when every check passes. The options then copy the values with empty strings dropped, default the switches to off and take the configured extra arguments. |
| `Server.AcceptedTextsAreNonEmpty` | src/server.rs:237-244 | Every optional text in accepted options is non-empty. |
| `Server.EmptyTextIsAbsent` | src/server.rs:237-244 | For every text argument but `auto`, an empty string is the same as leaving it out. |
| `Server.EmptyAutoNextToSkip` | src/server.rs:156-163 | An empty `auto` equals no `auto` unless permissions are skipped, and then only the empty one is refused. |
| `Server.ValidateRejections` | src/server.rs:156-260 | The unsafe-switch refusal and the auto-level refusal each name a value the request really holds. |

## Left out

- I/O and concurrency are parameters, not computed: the process spawn, pipes, `kill_on_drop`, the concurrent stderr task, the tokio timeout race (`Supervisor.Race`), and the file and directory reads of `read_droid_md`.
- JSON parsing and serialization: events arrive decoded as `Stream.Line`, and each object's serialized size is an abstract number.
- A failed read ends the stdout loop, and likewise the stderr collector; the model takes the lines read before it (`Supervisor.Child` holds the lines each side read). A JSON line that is not an object is never archived (`archiveSize` is `None`).
- Configuration loading is left out: the path lookup (`DROID_MCP_CONFIG_PATH`, else `droid-mcp.config.json` in the current directory; `HOME` or `USERPROFILE` for the Factory `.factory/config.json`), file reads, `OnceLock` caching, and the Factory config loader. Their result is a parameter (`Config.LoadServerConfig` takes the parsed document).
- `list_custom_models`, `eprintln!` logging, TOON encoding of the tool output, the MCP router, and all of `src/main.rs` are not part of this model.
- Path handling (`is_absolute`, `join`, `canonicalize`, `is_dir`, `is_file`) is a parameter of the validator (`Server.FileSystem`).
- Common.ParseUsize: does not reject numbers above `usize::MAX`, because integers are unbounded here; an index that large cannot name a registry entry anyway.
- Stream.AppendTextBounded: the bound is cap + 1 byte while open, because the separator is not counted by the source's check.
- Supervisor.Run: which side wins the race is an input, because the elapsed time of a run is not modelled.
- Supervisor.EffectiveTimeout: does not model `u64` limits on the requested seconds, because requests are unbounded `nat` values.
- Launch.ArgvReadBack: stated for command lines where no extra argument and no prompt passed as a word spells a flag, because otherwise a parser cannot tell the word from the flag.
- Utf8.Decode: defined only for well-formed bytes; ill-formed content takes the warning branch before any decoding.

=== FILE: common.dfy ===
/** Shared vocabulary: optional values, results, and the handful of string
    operations the Rust code takes from its standard library (`trim`,
    `contains`, `starts_with`, `rsplit_once`, integer formatting and
    `usize` parsing). */
module Common {

  datatype Option<+T> = None | Some(value: T) {
    function GetOr(default: T): T {
      match this
      case Some(v) => v
      case None => default
    }
  }

  datatype Result<+T, +E> = Ok(value: T) | Err(error: E)

  /** Rust's `char::is_whitespace`: the Unicode White_Space property. */
  predicate IsWhitespace(c: char) {
    || ('\U{0009}' <= c <= '\U{000D}')
    || c == ' '
    || c == '\U{0085}'
    || c == '\U{00A0}'
    || c == '\U{1680}'
    || ('\U{2000}' <= c <= '\U{200A}')
    || c == '\U{2028}'
    || c == '\U{2029}'
    || c == '\U{202F}'
    || c == '\U{205F}'
    || c == '\U{3000}'
  }

  /** True when `s` has nothing but whitespace (or nothing at all). */
  predicate IsBlank(s: string) {
    forall i :: 0 <= i < |s| ==> IsWhitespace(s[i])
  }

  /** Rust's `str::trim_start`. */
  function TrimStart(s: string): (r: string)
    ensures |r| <= |s| && r == s[|s| - |r|..]
    ensures forall i :: 0 <= i < |s| - |r| ==> IsWhitespace(s[i])
    ensures |r| == 0 || !IsWhitespace(r[0])
  {
    if |s| > 0 && IsWhitespace(s[0]) then TrimStart(s[1..]) else s
  }

  /** Rust's `str::trim_end`. */
  function TrimEnd(s: string): (r: string)
    ensures |r| <= |s| && r == s[..|r|]
    ensures forall i :: |r| <= i < |s| ==> IsWhitespace(s[i])
    ensures |r| == 0 || !IsWhitespace(r[|r| - 1])
  {
    if |s| > 0 && IsWhitespace(s[|s| - 1]) then TrimEnd(s[..|s| - 1]) else s
  }

  /** `r` is the slice of `s` starting at `i`, and everything of `s` around
      it is whitespace. */
  predicate TrimmedAt(s: string, r: string, i: int) {
    && 0 <= i <= |s| - |r|
    && r == s[i..i + |r|]
    && (forall k :: 0 <= k < i ==> IsWhitespace(s[k]))
    && (forall k :: i + |r| <= k < |s| ==> IsWhitespace(s[k]))
  }

  /** Rust's `str::trim`: the slice of `s` left after removing leading and
      trailing whitespace. */
  function Trim(s: string): (r: string)
    ensures |r| <= |s|
    ensures |r| == 0 || (!IsWhitespace(r[0]) && !IsWhitespace(r[|r| - 1]))
  {
    TrimEnd(TrimStart(s))
  }

  /** What is trimmed away is whitespace on both sides of the result. */
  lemma TrimSpec(s: string)
    ensures exists i :: TrimmedAt(s, Trim(s), i)
  {
    var front := TrimStart(s);
    var r := TrimEnd(front);
    TrimmedAtOf(s, front, r);
    assert TrimmedAt(s, Trim(s), |s| - |front|);
  }

  lemma TrimmedAtOf(s: string, front: string, r: string)
    requires |front| <= |s| && front == s[|s| - |front|..]
    requires forall k :: 0 <= k < |s| - |front| ==> IsWhitespace(s[k])
    requires |r| <= |front| && r == front[..|r|]
    requires forall k :: |r| <= k < |front| ==> IsWhitespace(front[k])
    ensures TrimmedAt(s, r, |s| - |front|)
  {
    var i := |s| - |front|;
    assert r == s[i..i + |r|];
    forall k | i + |r| <= k < |s| ensures IsWhitespace(s[k]) {
      assert s[k] == front[k - i];
    }
  }

  /** `s.trim().is_empty()` holds exactly for blank strings. */
  lemma TrimEmptyIffBlank(s: string)
    ensures Trim(s) == "" <==> IsBlank(s)
  {
    TrimSpec(s);
    if Trim(s) == "" {
      var i :| TrimmedAt(s, "", i);
      forall k | 0 <= k < |s| ensures IsWhitespace(s[k]) {
        if k < i {} else {}
      }
    } else {
      var r := Trim(s);
      var i :| TrimmedAt(s, r, i);
      assert s[i] == r[0];
    }
  }

  /** Trimming an already trimmed string changes nothing. */
  lemma TrimIdempotent(s: string)
    ensures Trim(Trim(s)) == Trim(s)
  {
    var r := Trim(s);
    if |r| > 0 {
      assert TrimStart(r) == r;
      assert TrimEnd(r) == r;
    }
  }

  predicate StartsWith(s: string, prefix: string) {
    |prefix| <= |s| && s[..|prefix|] == prefix
  }

  predicate OccursAt(s: string, pattern: string, i: int) {
    0 <= i <= |s| - |pattern| && s[i..i + |pattern|] == pattern
  }

  /** Rust's `str::contains` for a string pattern. */
  predicate Contains(s: string, pattern: string) {
    exists i :: 0 <= i <= |s| - |pattern| && OccursAt(s, pattern, i)
  }

  /** The position of the last occurrence of `c` in `s`, as found by
      `rsplit_once`. */
  function LastIndexOf(s: string, c: char): (r: Option<nat>)
    ensures r.None? <==> c !in s
    ensures r.Some? ==>
              && r.value < |s| && s[r.value] == c
              && forall j :: r.value < j < |s| ==> s[j] != c
  {
    if |s| == 0 then None
    else if s[|s| - 1] == c then Some(|s| - 1)
    else
      var r := LastIndexOf(s[..|s| - 1], c);
      assert s == s[..|s| - 1] + [s[|s| - 1]];
      r
  }

  /** ASCII lower-casing of one character. */
  function LowerChar(c: char): char {
    if 'A' <= c <= 'Z' then (c as int - 'A' as int + 'a' as int) as char else c
  }

  function AsciiLower(s: string): (r: string)
    ensures |r| == |s|
    ensures forall i :: 0 <= i < |s| ==> r[i] == LowerChar(s[i])
  {
    seq(|s|, i requires 0 <= i < |s| => LowerChar(s[i]))
  }

  /** `s.replace(from, to)` for single-character patterns. */
  function ReplaceChar(s: string, from: char, to: char): (r: string)
    ensures |r| == |s|
    ensures from != to ==> from !in r
    ensures forall i :: 0 <= i < |s| ==> r[i] == (if s[i] == from then to else s[i])
  {
    seq(|s|, i requires 0 <= i < |s| => if s[i] == from then to else s[i])
  }

  predicate IsDigit(c: char) {
    '0' <= c <= '9'
  }

  predicate AllDigits(s: string) {
    forall i :: 0 <= i < |s| ==> IsDigit(s[i])
  }

  function DigitChar(d: nat): (c: char)
    requires d < 10
    ensures IsDigit(c) && c as int - '0' as int == d
  {
    ('0' as int + d) as char
  }

  /** Decimal rendering of a natural number, as Rust's `{}` prints it. */
  function NatToString(n: nat): (r: string)
    ensures |r| > 0 && AllDigits(r)
    ensures n >= 10 ==> r[0] != '0'
    decreases n
  {
    if n < 10 then [DigitChar(n)] else NatToString(n / 10) + [DigitChar(n % 10)]
  }

  /** Decimal rendering of an integer, with a leading minus sign. */
  function IntToString(i: int): (r: string)
    ensures |r| > 0
    ensures (i < 0) <==> r[0] == '-'
  {
    if i < 0 then "-" + NatToString(-i) else NatToString(i)
  }

  /** The value of a string of decimal digits. */
  function DigitsValue(s: string): nat
    requires AllDigits(s)
  {
    if |s| == 0 then 0
    else DigitsValue(s[..|s| - 1]) * 10 + (s[|s| - 1] as int - '0' as int)
  }

  /** Rust's `str::parse::<usize>`: an optional `+`, then at least one ASCII
      digit and nothing else.  The source's upper bound on `usize` is not
      modelled here (see the model's notes). */
  function ParseUsize(s: string): (r: Option<nat>)
    ensures r.Some? ==> |s| > 0
    ensures r.Some? <==> (
      var digits := if |s| > 0 && s[0] == '+' then s[1..] else s;
      |digits| > 0 && AllDigits(digits))
  {
    var digits := if |s| > 0 && s[0] == '+' then s[1..] else s;
    if |digits| > 0 && AllDigits(digits) then Some(DigitsValue(digits)) else None
  }

  lemma {:induction false} DigitsValueOfNatToString(n: nat)
    ensures DigitsValue(NatToString(n)) == n
    decreases n
  {
    if n >= 10 {
      var r := NatToString(n);
      var front := NatToString(n / 10);
      assert r[..|r| - 1] == front;
      DigitsValueOfNatToString(n / 10);
    }
  }

  /** Parsing a rendered number gives the number back. */
  lemma ParseNatToString(n: nat)
    ensures ParseUsize(NatToString(n)) == Some(n)
  {
    DigitsValueOfNatToString(n);
  }

  /** The lines of an optional text joined with `"\n"`: the pattern the source
      uses for every warning it accumulates. */
  function AppendLine(first: Option<string>, next: Option<string>): (r: Option<string>)
    ensures r.None? <==> first.None? && next.None?
    ensures next.None? ==> r == first
    ensures first.None? ==> r == next
    ensures first.Some? && next.Some? ==> r == Some(first.value + "\n" + next.value)
  {
    match next
    case None => first
    case Some(n) =>
      match first
      case None => Some(n)
      case Some(f) => Some(f + "\n" + n)
  }
}

=== FILE: config.dfy ===
/** The two configuration documents of `src/droid.rs` once they have been
    read and parsed, and the pure decisions taken from them: the cleaned
    extra arguments, the default timeout and autonomy level, the default
    model, and the resolution of `custom:<name>-<index>` model references. */
module Config {
  import opened Common

  const DefaultTimeoutSecs: nat := 600
  const MaxTimeoutSecs: nat := 3600

  /** The execution defaults document. */
  datatype ServerConfig = ServerConfig(
    additionalArgs: seq<string>,
    timeoutSecs: Option<nat>,
    defaultAuto: Option<string>,
    maxTimeoutSecs: Option<nat>,
    allowHighAutonomy: bool)

  /** What the server uses when no document could be found, read or parsed. */
  const BuiltinServerConfig := ServerConfig([], None, None, None, true)

  /** One entry of the external model registry. */
  datatype CustomModel = CustomModel(displayName: string, model: string, provider: string)

  /** Extra arguments as the server keeps them: each one trimmed, and the ones
      that trim to nothing dropped. */
  function CleanArgs(args: seq<string>): (r: seq<string>)
    ensures |r| <= |args|
    ensures forall j :: 0 <= j < |r| ==> IsCleanArg(r[j])
  {
    if |args| == 0 then []
    else
      var t := Trim(args[0]);
      var rest := CleanArgs(args[1..]);
      if t == "" then rest
      else
        CleanCons(t, rest);
        [t] + rest
  }

  /** An argument as cleaning leaves it: not empty, and neither starting nor
      ending with whitespace. */
  predicate IsCleanArg(s: string) {
    s != "" && !IsWhitespace(s[0]) && !IsWhitespace(s[|s| - 1])
  }

  /** The clean arguments are exactly the non-empty strings trimming leaves
      alone. */
  lemma CleanArgIffTrimmed(s: string)
    ensures IsCleanArg(s) <==> s != "" && Trim(s) == s
  {
    if IsCleanArg(s) {
      assert TrimStart(s) == s;
      assert TrimEnd(s) == s;
      assert Trim(s) == TrimEnd(TrimStart(s));
    }
  }

  lemma CleanCons(t: string, rest: seq<string>)
    requires IsCleanArg(t)
    requires forall j :: 0 <= j < |rest| ==> IsCleanArg(rest[j])
    ensures forall j :: 0 <= j < |[t] + rest| ==> IsCleanArg(([t] + rest)[j])
  {
    forall j | 0 <= j < |[t] + rest| ensures IsCleanArg(([t] + rest)[j]) {
      if j > 0 {
        assert ([t] + rest)[j] == rest[j - 1];
      }
    }
  }

  /** Cleaning one argument: a blank one is dropped, any other is trimmed. */
  lemma CleanArgsSingle(s: string)
    ensures CleanArgs([s]) == (if IsBlank(s) then [] else [Trim(s)])
  {
    TrimEmptyIffBlank(s);
    assert [s][1..] == [];
  }

  /** Cleaning works argument by argument: the cleaned arguments keep their
      order and their repetitions. */
  lemma {:induction false} CleanArgsConcat(a: seq<string>, b: seq<string>)
    ensures CleanArgs(a + b) == CleanArgs(a) + CleanArgs(b)
    decreases |a|
  {
    if |a| == 0 {
      assert a + b == b;
    } else {
      assert (a + b)[0] == a[0];
      assert (a + b)[1..] == a[1..] + b;
      CleanArgsConcat(a[1..], b);
    }
  }

  /** Every argument that is not blank survives cleaning, trimmed. */
  lemma {:induction false} CleanArgsKeepsNonBlank(args: seq<string>, i: nat)
    requires i < |args| && !IsBlank(args[i])
    ensures Trim(args[i]) in CleanArgs(args)
  {
    TrimEmptyIffBlank(args[i]);
    if i > 0 {
      assert args[1..][i - 1] == args[i];
      CleanArgsKeepsNonBlank(args[1..], i - 1);
    }
  }

  /** Everything cleaning keeps is the trimmed form of some argument. */
  lemma {:induction false} CleanArgsOnlyTrims(args: seq<string>, x: string)
    requires x in CleanArgs(args)
    ensures exists i :: 0 <= i < |args| && Trim(args[i]) == x
  {
    var t := Trim(args[0]);
    if t == "" || x != t {
      CleanArgsOnlyTrims(args[1..], x);
      var i :| 0 <= i < |args[1..]| && Trim(args[1..][i]) == x;
      assert Trim(args[i + 1]) == x;
    } else {
      assert Trim(args[0]) == x;
    }
  }

  /** Cleaning arguments that are already clean changes nothing. */
  lemma {:induction false} CleanArgsIdempotent(args: seq<string>)
    ensures CleanArgs(CleanArgs(args)) == CleanArgs(args)
  {
    if |args| > 0 {
      var c := CleanArgs(args);
      CleanArgsIdempotent(args[1..]);
      var t := Trim(args[0]);
      if t != "" {
        CleanArgIffTrimmed(t);
        assert c == [t] + CleanArgs(args[1..]);
        assert c[0] == t && c[1..] == CleanArgs(args[1..]);
      }
    }
  }

  /** The configuration in force: the parsed document with its extra
      arguments cleaned, or the built-in defaults when there is no usable
      document (`parsed` is `None`). */
  function LoadServerConfig(parsed: Option<ServerConfig>): (cfg: ServerConfig)
    ensures parsed.None? ==> cfg == BuiltinServerConfig
    ensures parsed.Some? ==> cfg == parsed.value.(additionalArgs := CleanArgs(parsed.value.additionalArgs))
    ensures forall i :: 0 <= i < |cfg.additionalArgs| ==> !IsBlank(cfg.additionalArgs[i])
  {
    match parsed
    case None => BuiltinServerConfig
    case Some(c) =>
      var cleaned := CleanArgs(c.additionalArgs);
      forall i | 0 <= i < |cleaned| ensures !IsBlank(cleaned[i]) {
        TrimEmptyIffBlank(cleaned[i]);
      }
      c.(additionalArgs := cleaned)
  }

  /** The default timeout: a configured value in 1..=3600 as it is, a larger
      one clamped to 3600, anything else (absent or zero) 600. */
  function DefaultTimeout(configured: Option<nat>): (t: nat)
    ensures 1 <= t <= MaxTimeoutSecs
    ensures configured.Some? && 0 < configured.value <= MaxTimeoutSecs ==> t == configured.value
    ensures configured.Some? && configured.value > MaxTimeoutSecs ==> t == MaxTimeoutSecs
    ensures configured.None? || configured.value == 0 ==> t == DefaultTimeoutSecs
  {
    match configured
    case Some(t) =>
      if 0 < t <= MaxTimeoutSecs then t
      else if t > MaxTimeoutSecs then MaxTimeoutSecs
      else DefaultTimeoutSecs
    case None => DefaultTimeoutSecs
  }

  /** Feeding the default timeout back in as configuration reproduces it. */
  lemma DefaultTimeoutIdempotent(configured: Option<nat>)
    ensures DefaultTimeout(Some(DefaultTimeout(configured))) == DefaultTimeout(configured)
  {
  }

  /** The autonomy level used when a request gives none: the configured one
      unless it is blank, otherwise "high". */
  function DefaultAuto(cfg: ServerConfig): (r: Option<string>)
    ensures r.Some? && !IsBlank(r.value)
    ensures cfg.defaultAuto.Some? && !IsBlank(cfg.defaultAuto.value) ==> r == cfg.defaultAuto
    ensures cfg.defaultAuto.None? || IsBlank(cfg.defaultAuto.value) ==> r == Some("high")
  {
    assert "high"[0] == 'h';
    match cfg.defaultAuto
    case Some(d) =>
      TrimEmptyIffBlank(d);
      if Trim(d) != "" then Some(d) else Some("high")
    case None => Some("high")
  }

  const CustomPrefix := "custom:"

  /** The reference under which the registry lists model number `idx`. */
  function ModelRef(displayName: string, idx: nat): string {
    CustomPrefix + ReplaceChar(displayName, ' ', '-') + "-" + NatToString(idx)
  }

  /** The index a `custom:` reference names: the text after its last `-`,
      parsed as a `usize`. */
  function CustomIndex(model: string): (r: Option<nat>)
    requires StartsWith(model, CustomPrefix)
    ensures r.Some? ==> '-' in model[|CustomPrefix|..]
  {
    var rest := model[|CustomPrefix|..];
    match LastIndexOf(rest, '-')
    case None => None
    case Some(i) => ParseUsize(rest[i + 1..])
  }

  /** A reference built for model `idx` names model `idx` again, whatever
      hyphens or spaces the display name holds: the digits after the last
      hyphen are exactly the rendered index. */
  lemma CustomIndexOfModelRef(displayName: string, idx: nat)
    ensures StartsWith(ModelRef(displayName, idx), CustomPrefix)
    ensures CustomIndex(ModelRef(displayName, idx)) == Some(idx)
  {
    var slug := ReplaceChar(displayName, ' ', '-');
    var digits := NatToString(idx);
    var m := ModelRef(displayName, idx);
    assert m == CustomPrefix + (slug + "-" + digits);
    var rest := m[|CustomPrefix|..];
    assert rest == slug + "-" + digits;
    assert rest[|slug|] == '-';
    forall j | |slug| < j < |rest| ensures rest[j] != '-' {
      assert rest[j] == digits[j - |slug| - 1];
    }
    assert LastIndexOf(rest, '-') == Some(|slug|);
    assert rest[|slug| + 1..] == digits;
    ParseNatToString(idx);
  }

  /** Rust's `to_lowercase().contains("gpt")` on either name.  Lowering only
      ASCII letters decides this the same way: no other character lowercases
      to `g`, `p` or `t`. */
  predicate MentionsGpt(m: CustomModel) {
    Contains(AsciiLower(m.displayName), "gpt") || Contains(AsciiLower(m.model), "gpt")
  }

  /** The index of the first registry entry that mentions GPT. */
  function FirstGpt(models: seq<CustomModel>): (r: Option<nat>)
    ensures r.Some? ==> r.value < |models| && MentionsGpt(models[r.value])
    ensures r.Some? ==> forall j :: 0 <= j < r.value ==> !MentionsGpt(models[j])
    ensures r.None? ==> forall j :: 0 <= j < |models| ==> !MentionsGpt(models[j])
  {
    if |models| == 0 then None
    else if MentionsGpt(models[0]) then Some(0)
    else
      match FirstGpt(models[1..])
      case None => None
      case Some(k) => Some(k + 1)
  }

  /** The model used when a request names none: the first GPT entry, else
      the first entry, else none (the agent's own default). */
  function DefaultModel(models: seq<CustomModel>): (r: Option<string>)
    ensures r.None? <==> |models| == 0
    ensures forall k ::
              (0 <= k < |models| && MentionsGpt(models[k])
               && (forall j :: 0 <= j < k ==> !MentionsGpt(models[j])))
              ==> r == Some(ModelRef(models[k].displayName, k))
    ensures (|models| > 0 && forall j :: 0 <= j < |models| ==> !MentionsGpt(models[j])) ==>
              r == Some(ModelRef(models[0].displayName, 0))
  {
    match FirstGpt(models)
    case Some(k) => Some(ModelRef(models[k].displayName, k))
    case None =>
      if |models| > 0 then
        assert NatToString(0) == "0";
        assert CustomPrefix + ReplaceChar(models[0].displayName, ' ', '-') + "-0"
            == ModelRef(models[0].displayName, 0);
        Some(CustomPrefix + ReplaceChar(models[0].displayName, ' ', '-') + "-0")
      else None
  }

  /** The human-readable model line and the warning that goes with it. */
  datatype ModelReport = ModelReport(display: Option<string>, warning: Option<string>)

  const FactoryDefaultModel := "Factory default model"
  const NoCustomModelsWarning :=
    "\U{26A0}\U{FE0F}  No custom models configured. Using Factory default model (requires FACTORY_API_KEY)."

  function Describe(m: CustomModel): string {
    m.displayName + " [" + m.provider + "] (" + m.model + ")"
  }

  function InvalidRefWarning(model: string): string {
    "\U{26A0}\U{FE0F}  Invalid custom model reference: '" + model + "'. Using first available model."
  }

  /** Joins the invalid-reference warning to the description of the entry
      used instead. */
  const FallbackNotice := "\n\U{2139}\U{FE0F}  Fallback to: "

  /** True when `model` is a `custom:` reference whose index names an entry. */
  predicate Resolves(model: string, models: seq<CustomModel>) {
    StartsWith(model, CustomPrefix)
      && CustomIndex(model).Some? && CustomIndex(model).value < |models|
  }

  /** `get_model_info`: describe the model in use and warn when a custom
      reference cannot be resolved or there is nothing to fall back on. */
  function GetModelInfo(param: Option<string>, models: seq<CustomModel>): (r: ModelReport)
    ensures r.display.Some?
    ensures param.None? && |models| > 0 ==> r == ModelReport(Some(Describe(models[0])), None)
    ensures param.None? && |models| == 0 ==> r == ModelReport(Some(FactoryDefaultModel), Some(NoCustomModelsWarning))
    ensures param.Some? && !StartsWith(param.value, CustomPrefix) ==>
              r == ModelReport(Some("Model: " + param.value), None)
    ensures param.Some? && Resolves(param.value, models) ==>
              r == ModelReport(Some(Describe(models[CustomIndex(param.value).value])), None)
    ensures param.Some? && StartsWith(param.value, CustomPrefix) && !Resolves(param.value, models) ==>
              r.warning.Some? && StartsWith(r.warning.value, InvalidRefWarning(param.value))
    ensures param.Some? && StartsWith(param.value, CustomPrefix) && !Resolves(param.value, models) ==>
              r == (if |models| > 0
                    then ModelReport(Some(Describe(models[0])),
                                     Some(InvalidRefWarning(param.value) + FallbackNotice + Describe(models[0])))
                    else ModelReport(Some(FactoryDefaultModel), Some(InvalidRefWarning(param.value))))
    ensures param.Some? ==> (r.warning.None? <==> !StartsWith(param.value, CustomPrefix) || Resolves(param.value, models))
  {
    match param
    case None =>
      if |models| > 0 then ModelReport(Some(Describe(models[0])), None)
      else ModelReport(Some(FactoryDefaultModel), Some(NoCustomModelsWarning))
    case Some(model) =>
      if StartsWith(model, CustomPrefix) then
        var idx := CustomIndex(model);
        if idx.Some? && idx.value < |models| then
          ModelReport(Some(Describe(models[idx.value])), None)
        else
          var warning := InvalidRefWarning(model);
          if |models| > 0 then
            var display := Describe(models[0]);
            var combined := warning + FallbackNotice + display;
            assert combined[..|warning|] == warning;
            ModelReport(Some(display), Some(combined))
          else ModelReport(Some(FactoryDefaultModel), Some(warning))
      else ModelReport(Some("Model: " + model), None)
  }

  /** The default model always resolves: describing it names the chosen
      registry entry and raises no warning. */
  lemma DefaultModelResolves(models: seq<CustomModel>)
    requires |models| > 0
    ensures var k := if FirstGpt(models).Some? then FirstGpt(models).value else 0;
      GetModelInfo(DefaultModel(models), models) == ModelReport(Some(Describe(models[k])), None)
  {
    var k := if FirstGpt(models).Some? then FirstGpt(models).value else 0;
    CustomIndexOfModelRef(models[k].displayName, k);
  }

  /** The last-hyphen rule reads a display name's own trailing number as an
      index: "custom:GPT-4" names entry 4, not a model called "GPT-4". */
  lemma TrailingNumberReadAsIndex()
    ensures CustomIndex("custom:GPT-4") == Some(4)
  {
    var rest := "GPT-4";
    assert "custom:GPT-4"[|CustomPrefix|..] == rest;
    assert LastIndexOf(rest, '-') == Some(3);
    assert rest[4..] == "4";
    assert ParseUsize("4") == Some(4);
  }
}

=== FILE: droidmd.dfy ===
/** The project context file (DROID.md) and the prompt built around it,
    `read_droid_md` and the start of `run` in `src/droid.rs`.  Finding,
    sizing and reading the file are I/O; what they produced is given as a
    `DroidMdFile`, and everything decided from it is modelled. */
module DroidMd {
  import opened Common
  import opened Utf8

  /** Content above this many bytes is cut down (1 MiB). */
  const MaxDroidMdSize: nat := 1024 * 1024
  /** Files above this many bytes are skipped (10 MiB). */
  const AbsoluteMaxSize: nat := 10 * 1024 * 1024

  /** Opening and reading the file once its size is known. */
  datatype FileAccess =
    | OpenFailed(reason: string)
    | ReadFailed(reason: string)
    | Readable(bytes: seq<byte>)   // the bytes on disk when it was read

  /** What the file system says about `<working dir>/DROID.md`. */
  datatype DroidMdFile =
    | Missing
    | MetadataFailed(reason: string)
    | Present(size: nat, access: FileAccess)   // `size` comes from the metadata

  /** The context text to prepend and the warning to report. */
  datatype ContextFile = ContextFile(content: Option<string>, warning: Option<string>)

  const InvalidUtf8Warning := "DROID.md contains invalid UTF-8 and was skipped."

  function TooLargeWarning(size: nat): string {
    "DROID.md is " + NatToString(size) + " bytes, exceeding the absolute maximum of "
      + NatToString(AbsoluteMaxSize) + " bytes and will be skipped."
  }

  function TruncatedWarning(size: nat, end: nat): string {
    "DROID.md is " + NatToString(size) + " bytes, exceeding the " + NatToString(MaxDroidMdSize)
      + " byte limit and was truncated to " + NatToString(end) + " bytes."
  }

  function Min(a: nat, b: nat): nat {
    if a <= b then a else b
  }

  /** The largest `e <= end` at which `content[..e]` is valid UTF-8, searching
      downwards from `end`; 0 when no non-empty prefix up to `end` is valid. */
  function LastValidEnd(content: seq<byte>, end: nat): (e: nat)
    requires end <= |content|
    ensures e <= end
    ensures e > 0 ==> ValidUtf8(content[..e])
    ensures forall k :: e < k <= end ==> !ValidUtf8(content[..k])
    decreases end
  {
    if end == 0 then 0
    else if ValidUtf8(content[..end]) then end
    else LastValidEnd(content, end - 1)
  }

  /** A well-formed non-empty prefix decodes to text that encodes back to
      exactly that prefix. */
  lemma DecodedPrefix(content: seq<byte>, end: nat)
    requires 0 < end <= |content| && ValidUtf8(content[..end])
    ensures var s := Decode(content[..end]);
      s != "" && Utf8Len(s) == end && Encode(s) == content[..Utf8Len(s)]
  {
    var s := Decode(content[..end]);
    EncodeDecode(content[..end]);
    Utf8LenAtLeastLength(s);
  }

  /** Content above the limit: cut at the last character boundary within
      it, or skipped when there is none. */
  function Truncate(size: nat, content: seq<byte>): (r: ContextFile)
    requires |content| > MaxDroidMdSize
    ensures r.warning.Some?
    ensures r.content.Some? ==> var s := r.content.value;
      && s != ""
      && Utf8Len(s) <= MaxDroidMdSize
      && Encode(s) == content[..Utf8Len(s)]
      && r.warning == Some(TruncatedWarning(size, Utf8Len(s)))
      && forall k :: Utf8Len(s) < k <= MaxDroidMdSize ==> !ValidUtf8(content[..k])
    ensures r.content.None? ==> r.warning == Some(InvalidUtf8Warning)
    ensures r.content.None? <==> forall e :: 0 < e <= MaxDroidMdSize ==> !ValidUtf8(content[..e])
  {
    var end := LastValidEnd(content, MaxDroidMdSize);
    if end > 0 then
      DecodedPrefix(content, end);
      ContextFile(Some(Decode(content[..end])), Some(TruncatedWarning(size, end)))
    else ContextFile(None, Some(InvalidUtf8Warning))
  }

  /** The decisions taken on the bytes actually read (`content`, at most
      `toRead` of them) from a file whose metadata gave `size`. */
  function Examine(size: nat, toRead: nat, content: seq<byte>): (r: ContextFile)
    ensures |content| == 0 ==> r == ContextFile(None, None)
    ensures r.content.Some? ==> var s := r.content.value;
      && s != ""
      && Utf8Len(s) <= MaxDroidMdSize
      && Utf8Len(s) <= |content|
      && Encode(s) == content[..Utf8Len(s)]
    ensures |content| <= MaxDroidMdSize && r.content.Some? ==>
      ValidUtf8(content) && r.content.value == Decode(content)
    ensures |content| > MaxDroidMdSize && r.content.Some? ==>
      forall k :: Utf8Len(r.content.value) < k <= MaxDroidMdSize ==> !ValidUtf8(content[..k])
    ensures r.content.None? && r.warning.None? ==>
      |content| == 0 || (size <= toRead && ValidUtf8(content) && IsBlank(Decode(content)))
    ensures 0 < |content| <= MaxDroidMdSize && ValidUtf8(content)
            && !(size <= toRead && IsBlank(Decode(content))) ==>
      r == ContextFile(Some(Decode(content)), None)
    ensures 0 < |content| <= MaxDroidMdSize && !ValidUtf8(content) ==>
      r == ContextFile(None, Some(InvalidUtf8Warning))
    ensures |content| > MaxDroidMdSize
            && (forall e :: 0 < e <= MaxDroidMdSize ==> !ValidUtf8(content[..e])) ==>
      r == ContextFile(None, Some(InvalidUtf8Warning))
  {
    if |content| == 0 then ContextFile(None, None)
    else if size <= toRead && ValidUtf8(content) && IsBlank(Decode(content)) then
      if |content| > MaxDroidMdSize then
        LongContentHasBoundary(content);
        ContextFile(None, None)
      else
        ContextFile(None, None)
    else if |content| > MaxDroidMdSize then Truncate(size, content)
    else Whole(content)
  }

  /** Well-formed content longer than the limit has a non-empty well-formed
      prefix within the limit, so such content is never skipped as blank
      when no boundary exists there. */
  lemma LongContentHasBoundary(content: seq<byte>)
    requires |content| > MaxDroidMdSize && ValidUtf8(content)
    ensures exists e :: 0 < e <= MaxDroidMdSize && ValidUtf8(content[..e])
  {
    BoundaryNear(content, MaxDroidMdSize);
  }

  /** Content within the limit: used whole when it is valid UTF-8. */
  function Whole(content: seq<byte>): (r: ContextFile)
    requires 0 < |content|
    ensures r.content.Some? ==>
      && ValidUtf8(content) && r.content.value == Decode(content) && r.warning.None?
      && r.content.value != "" && Utf8Len(r.content.value) == |content|
      && Encode(r.content.value) == content[..Utf8Len(r.content.value)]
    ensures r.content.None? ==> !ValidUtf8(content) && r.warning == Some(InvalidUtf8Warning)
  {
    if ValidUtf8(content) then
      assert content[..|content|] == content;
      DecodedPrefix(content, |content|);
      ContextFile(Some(Decode(content)), None)
    else ContextFile(None, Some(InvalidUtf8Warning))
  }

  /** `read_droid_md`: the context file to use, with its warning.  At most
      1 MiB + 4 bytes are read; a file above 10 MiB is skipped unread. */
  function ReadDroidMd(file: DroidMdFile): (r: ContextFile)
    ensures file.Missing? ==> r == ContextFile(None, None)
    ensures file.Present? && file.size > AbsoluteMaxSize ==>
      r == ContextFile(None, Some(TooLargeWarning(file.size)))
    ensures !file.Present? || !file.access.Readable? ==> r.content.None?
    ensures file.MetadataFailed? ==>
      r == ContextFile(None, Some("Failed to read DROID.md metadata: " + file.reason))
    ensures file.Present? && file.size <= AbsoluteMaxSize && file.access.OpenFailed? ==>
      r == ContextFile(None, Some("Failed to open DROID.md: " + file.access.reason))
    ensures file.Present? && file.size <= AbsoluteMaxSize && file.access.ReadFailed? ==>
      r == ContextFile(None, Some("Failed to read DROID.md: " + file.access.reason))
    ensures r.content.Some? ==>
      && file.Present? && file.size <= AbsoluteMaxSize && file.access.Readable?
      && Utf8Len(r.content.value) <= MaxDroidMdSize
      && Utf8Len(r.content.value) <= |file.access.bytes|
      && Encode(r.content.value) == file.access.bytes[..Utf8Len(r.content.value)]
  {
    match file
    case Missing => ContextFile(None, None)
    case MetadataFailed(e) => ContextFile(None, Some("Failed to read DROID.md metadata: " + e))
    case Present(size, access) =>
      if size > AbsoluteMaxSize then ContextFile(None, Some(TooLargeWarning(size)))
      else
        var toRead := Min(size, MaxDroidMdSize + 4);
        match access
        case OpenFailed(e) => ContextFile(None, Some("Failed to open DROID.md: " + e))
        case ReadFailed(e) => ContextFile(None, Some("Failed to read DROID.md: " + e))
        case Readable(bytes) =>
          var content := bytes[..Min(|bytes|, toRead)];
          var r := Examine(size, toRead, content);
          if r.content.Some? then
            PrefixOfPrefix(bytes, |content|, Utf8Len(r.content.value));
            r
          else r
  }

  lemma PrefixOfPrefix(b: seq<byte>, m: nat, n: nat)
    requires n <= m <= |b|
    ensures b[..m][..n] == b[..n]
  {
  }

  /** Over-long content is cut at the last valid boundary: no earlier than any
      boundary `e` the caller knows of. */
  lemma ExamineKeepsBoundary(size: nat, toRead: nat, content: seq<byte>, e: nat)
    requires |content| > MaxDroidMdSize
    requires 0 < e <= MaxDroidMdSize && ValidUtf8(content[..e])
    ensures var r := Examine(size, toRead, content);
      r.content.Some? ==>
        && e <= Utf8Len(r.content.value)
        && r.warning == Some(TruncatedWarning(size, Utf8Len(r.content.value)))
    ensures var r := Examine(size, toRead, content);
      r.content.None? ==> r.warning.None?
  {
    var end := LastValidEnd(content, MaxDroidMdSize);
    assert end >= e;
  }

  /** When the file really is valid UTF-8 but too long, truncation keeps all
      but at most three bytes of the limit: it stops at the last character
      boundary, which is never further back than that.  The only other
      outcome is a file of whitespace short enough to be read whole. */
  lemma TruncationKeepsNearlyAll(bytes: seq<byte>)
    requires MaxDroidMdSize < |bytes| <= AbsoluteMaxSize
    requires ValidUtf8(bytes)
    ensures var r := ReadDroidMd(Present(|bytes|, Readable(bytes)));
      r.content.Some? ==>
        && MaxDroidMdSize - 3 <= Utf8Len(r.content.value) <= MaxDroidMdSize
        && r.warning == Some(TruncatedWarning(|bytes|, Utf8Len(r.content.value)))
    ensures var r := ReadDroidMd(Present(|bytes|, Readable(bytes)));
      r.content.None? ==> r.warning.None? && |bytes| <= MaxDroidMdSize + 4 && IsBlank(Decode(bytes))
  {
    ReadReadable(bytes);
    ExamineNearlyAll(bytes, Min(|bytes|, MaxDroidMdSize + 4));
    ExamineSkipsOnlyBlank(bytes, Min(|bytes|, MaxDroidMdSize + 4));
  }

  /** The examination step behind `TruncationKeepsNearlyAll`, when text
      is kept. */
  lemma ExamineNearlyAll(bytes: seq<byte>, toRead: nat)
    requires MaxDroidMdSize < |bytes| <= AbsoluteMaxSize
    requires ValidUtf8(bytes)
    requires toRead == Min(|bytes|, MaxDroidMdSize + 4)
    ensures var r := Examine(|bytes|, toRead, bytes[..toRead]);
      r.content.Some? ==>
        && MaxDroidMdSize - 3 <= Utf8Len(r.content.value) <= MaxDroidMdSize
        && r.warning == Some(TruncatedWarning(|bytes|, Utf8Len(r.content.value)))
  {
    BoundaryNear(bytes, MaxDroidMdSize);
    var e :| 0 <= e <= MaxDroidMdSize && MaxDroidMdSize - 3 <= e && ValidUtf8(bytes[..e]);
    PrefixOfPrefix(bytes, toRead, e);
    ExamineKeepsBoundary(|bytes|, toRead, bytes[..toRead], e);
  }

  /** The examination step behind `TruncationKeepsNearlyAll`, when no text
      is kept. */
  lemma ExamineSkipsOnlyBlank(bytes: seq<byte>, toRead: nat)
    requires MaxDroidMdSize < |bytes| <= AbsoluteMaxSize
    requires ValidUtf8(bytes)
    requires toRead == Min(|bytes|, MaxDroidMdSize + 4)
    ensures var r := Examine(|bytes|, toRead, bytes[..toRead]);
      r.content.None? ==> r.warning.None? && |bytes| <= MaxDroidMdSize + 4 && IsBlank(Decode(bytes))
  {
    var content := bytes[..toRead];
    var r := Examine(|bytes|, toRead, content);
    if r.content.None? {
      BoundaryNear(bytes, MaxDroidMdSize);
      var e :| 0 <= e <= MaxDroidMdSize && MaxDroidMdSize - 3 <= e && ValidUtf8(bytes[..e]);
      PrefixOfPrefix(bytes, toRead, e);
      ExamineKeepsBoundary(|bytes|, toRead, content, e);
      if |bytes| <= toRead {
        assert content == bytes;
      }
    }
  }

  /** A readable file above 1 MiB with no well-formed boundary in its first
      1 MiB gives no text and only the UTF-8 warning. */
  lemma IllFormedHeadWarns(bytes: seq<byte>)
    requires MaxDroidMdSize < |bytes| <= AbsoluteMaxSize
    requires forall e :: 0 < e <= MaxDroidMdSize ==> !ValidUtf8(bytes[..e])
    ensures ReadDroidMd(Present(|bytes|, Readable(bytes))) == ContextFile(None, Some(InvalidUtf8Warning))
  {
    ReadReadable(bytes);
    var toRead := Min(|bytes|, MaxDroidMdSize + 4);
    var content := bytes[..toRead];
    forall e | 0 < e <= MaxDroidMdSize
      ensures !ValidUtf8(content[..e])
    {
      PrefixOfPrefix(bytes, toRead, e);
    }
  }

  /** A readable file within the absolute limit is examined on its first
      1 MiB + 4 bytes. */
  lemma ReadReadable(bytes: seq<byte>)
    requires |bytes| <= AbsoluteMaxSize
    ensures var toRead := Min(|bytes|, MaxDroidMdSize + 4);
      ReadDroidMd(Present(|bytes|, Readable(bytes))) == Examine(|bytes|, toRead, bytes[..toRead])
  {
  }

  /** A readable file within 1 MiB is read in full: it is used whole when it
      is well-formed and not blank, skipped silently when it is blank, and
      skipped with the UTF-8 warning when it is ill-formed. */
  lemma SmallFileUsedWhole(bytes: seq<byte>)
    requires 0 < |bytes| <= MaxDroidMdSize
    ensures var r := ReadDroidMd(Present(|bytes|, Readable(bytes)));
      && (ValidUtf8(bytes) && !IsBlank(Decode(bytes)) ==> r == ContextFile(Some(Decode(bytes)), None))
      && (ValidUtf8(bytes) && IsBlank(Decode(bytes)) ==> r == ContextFile(None, None))
      && (!ValidUtf8(bytes) ==> r == ContextFile(None, Some(InvalidUtf8Warning)))
  {
    ReadReadable(bytes);
    assert bytes[..Min(|bytes|, MaxDroidMdSize + 4)] == bytes;
  }

  const SystemPromptOpen := "<system_prompt>\n"
  const SystemPromptClose := "\n</system_prompt>\n\n"

  /** The prompt handed to the agent: the context wrapped in
      `<system_prompt>` tags, if there is one, then the caller's text. */
  function ComposePrompt(context: Option<string>, prompt: Option<string>): (r: string)
    ensures var p := prompt.GetOr("");
      |p| <= |r| && r[|r| - |p|..] == p
    ensures context.None? ==> r == prompt.GetOr("")
    ensures context.Some? ==>
      var head := SystemPromptOpen + context.value + SystemPromptClose;
      StartsWith(r, head) && |r| == |head| + |prompt.GetOr("")|
  {
    var head := match context
      case Some(c) => SystemPromptOpen + c + SystemPromptClose
      case None => "";
    var r := head + prompt.GetOr("");
    assert r[..|head|] == head;
    r
  }
}

=== FILE: launch.dfy ===
/** The agent's command line, as `run_internal` in `src/droid.rs` builds it
    from the options.  The partner of the builder is `ReadBack`, a reading of
    an argument vector the way a command-line parser with the same flag
    vocabulary would read it: every option that was set comes back under its
    own flag, and an option that was not set is absent. */
module Launch {
  import opened Common

  /** The execution options of one run. */
  datatype Options = Options(
    prompt: Option<string>,
    file: Option<string>,
    workingDir: string,
    sessionId: Option<string>,
    auto: Option<string>,
    model: Option<string>,
    enabledTools: Option<string>,
    disabledTools: Option<string>,
    additionalArgs: seq<string>,
    timeoutSecs: Option<nat>,
    reasoningEffort: Option<string>,
    useSpec: bool,
    specModel: Option<string>,
    skipPermissionsUnsafe: bool,
    outputFormat: Option<string>)

  const DefaultOutputFormat := "stream-json"

  /** The flags that take a value. */
  datatype ValueFlag =
    | Output | Cwd | Auto | Reasoning | SpecModel | Model
    | EnabledTools | DisabledTools | SessionId | File

  /** The flags that stand alone. */
  datatype SwitchFlag = SkipPermissions | UseSpec

  function ValueSpelling(f: ValueFlag): string {
    match f
    case Output => "-o"
    case Cwd => "--cwd"
    case Auto => "--auto"
    case Reasoning => "-r"
    case SpecModel => "--spec-model"
    case Model => "--model"
    case EnabledTools => "--enabled-tools"
    case DisabledTools => "--disabled-tools"
    case SessionId => "--session-id"
    case File => "--file"
  }

  function SwitchSpelling(s: SwitchFlag): string {
    match s
    case SkipPermissions => "--skip-permissions-unsafe"
    case UseSpec => "--use-spec"
  }

  /** The value flag an argument string spells, if any. */
  function ValueFlagOf(t: string): Option<ValueFlag> {
    if t == "-o" then Some(Output)
    else if t == "--cwd" then Some(Cwd)
    else if t == "--auto" then Some(Auto)
    else if t == "-r" then Some(Reasoning)
    else if t == "--spec-model" then Some(SpecModel)
    else if t == "--model" then Some(Model)
    else if t == "--enabled-tools" then Some(EnabledTools)
    else if t == "--disabled-tools" then Some(DisabledTools)
    else if t == "--session-id" then Some(SessionId)
    else if t == "--file" then Some(File)
    else None
  }

  /** The switch an argument string spells, if any. */
  function SwitchFlagOf(t: string): Option<SwitchFlag> {
    if t == "--skip-permissions-unsafe" then Some(SkipPermissions)
    else if t == "--use-spec" then Some(UseSpec)
    else None
  }

  /** Every spelling is recognised as its own flag and as nothing else. */
  lemma SpellingsRecognised(f: ValueFlag, s: SwitchFlag)
    ensures ValueFlagOf(ValueSpelling(f)) == Some(f) && SwitchFlagOf(ValueSpelling(f)) == None
    ensures SwitchFlagOf(SwitchSpelling(s)) == Some(s) && ValueFlagOf(SwitchSpelling(s)) == None
  {
  }

  predicate IsFlag(t: string) {
    ValueFlagOf(t).Some? || SwitchFlagOf(t).Some?
  }

  /** One item of the command line. */
  datatype Arg =
    | Flag(flag: ValueFlag, value: string)   // a flag and the value after it
    | Switch(switch: SwitchFlag)             // a flag on its own
    | Plain(text: string)                    // passed through as it is

  /** The flag and its value when the option is set, nothing otherwise. */
  function OptFlag(f: ValueFlag, v: Option<string>): seq<Arg> {
    if v.Some? then [Flag(f, v.value)] else []
  }

  function Plains(texts: seq<string>): (r: seq<Arg>)
    ensures |r| == |texts|
    ensures forall i :: 0 <= i < |texts| ==> r[i] == Plain(texts[i])
  {
    seq(|texts|, i requires 0 <= i < |texts| => Plain(texts[i]))
  }

  /** The permission items: the unsafe switch wins over an autonomy level. */
  function PermissionArgs(opts: Options): seq<Arg> {
    if opts.skipPermissionsUnsafe then [Switch(SkipPermissions)] else OptFlag(Auto, opts.auto)
  }

  /** The specification-mode items: the spec model only goes with the switch. */
  function SpecArgs(opts: Options): seq<Arg> {
    if opts.useSpec then [Switch(UseSpec)] + OptFlag(SpecModel, opts.specModel) else []
  }

  /** The work item: a file to read it from, or else the composed prompt. */
  function TaskArgs(opts: Options, prompt: string): seq<Arg> {
    if opts.file.Some? then [Flag(File, opts.file.value)] else [Plain(prompt)]
  }

  /** The output format (default `stream-json`) and the working directory. */
  function HeadArgs(opts: Options): seq<Arg> {
    [Flag(Output, opts.outputFormat.GetOr(DefaultOutputFormat)), Flag(Cwd, opts.workingDir)]
  }

  /** The model, the tool lists, the session to resume, the extra arguments
      and the work item. */
  function TailArgs(opts: Options, prompt: string): (r: seq<Arg>)
    ensures |r| > 0 && r[|r| - 1] == (if opts.file.Some? then Flag(File, opts.file.value) else Plain(prompt))
  {
    OptFlag(Model, opts.model)
      + (OptFlag(EnabledTools, opts.enabledTools)
      + (OptFlag(DisabledTools, opts.disabledTools)
      + (OptFlag(SessionId, opts.sessionId)
      + (Plains(opts.additionalArgs)
      + TaskArgs(opts, prompt)))))
  }

  /** Everything after `exec`, in the order the source adds it. */
  function Command(opts: Options, prompt: string): (r: seq<Arg>)
    ensures |r| >= 3
    ensures r[..2] == HeadArgs(opts)
    ensures r[|r| - 1] == (if opts.file.Some? then Flag(File, opts.file.value) else Plain(prompt))
  {
    HeadArgs(opts)
      + (PermissionArgs(opts)
      + (OptFlag(Reasoning, opts.reasoningEffort)
      + (SpecArgs(opts)
      + TailArgs(opts, prompt))))
  }

  function Tokens(a: Arg): seq<string> {
    match a
    case Flag(f, v) => [ValueSpelling(f), v]
    case Switch(s) => [SwitchSpelling(s)]
    case Plain(t) => [t]
  }

  /** The argument strings of a command line. */
  function Render(args: seq<Arg>): seq<string> {
    if |args| == 0 then [] else Tokens(args[0]) + Render(args[1..])
  }

  lemma {:induction false} RenderConcat(a: seq<Arg>, b: seq<Arg>)
    ensures Render(a + b) == Render(a) + Render(b)
    decreases |a|
  {
    if |a| == 0 {
      assert a + b == b;
    } else {
      assert (a + b)[0] == a[0];
      assert (a + b)[1..] == a[1..] + b;
      RenderConcat(a[1..], b);
    }
  }

  /** The full argument vector handed to the agent binary: `exec`, the
      output format and the working directory first; the prompt last, or
      `--file` and its path last when a file is given. */
  function Argv(opts: Options, prompt: string): (r: seq<string>)
    ensures |r| >= 6 && r[0] == "exec"
    ensures r[1..5] == ["-o", opts.outputFormat.GetOr(DefaultOutputFormat), "--cwd", opts.workingDir]
    ensures opts.file.None? ==> r[|r| - 1] == prompt
    ensures opts.file.Some? ==> r[|r| - 2..] == ["--file", opts.file.value]
  {
    var c := Command(opts, prompt);
    ArgvShape(c, opts, prompt);
    ["exec"] + Render(c)
  }

  /** The argument vector of any command line with the shape `Command`
      guarantees. */
  lemma ArgvShape(c: seq<Arg>, opts: Options, prompt: string)
    requires |c| >= 3 && c[..2] == HeadArgs(opts)
    requires c[|c| - 1] == (if opts.file.Some? then Flag(File, opts.file.value) else Plain(prompt))
    ensures var r := ["exec"] + Render(c);
      && |r| >= 6 && r[0] == "exec"
      && r[1..5] == ["-o", opts.outputFormat.GetOr(DefaultOutputFormat), "--cwd", opts.workingDir]
      && (opts.file.None? ==> r[|r| - 1] == prompt)
      && (opts.file.Some? ==> r[|r| - 2..] == ["--file", opts.file.value])
  {
    var r := ["exec"] + Render(c);
    assert c[0] == c[..2][0] && c[1] == c[..2][1];
    RenderShape(c, opts.outputFormat.GetOr(DefaultOutputFormat), opts.workingDir);
    var t := Tokens(c[|c| - 1]);
    if opts.file.Some? {
      assert t == ["--file", opts.file.value];
    } else {
      assert t == [prompt];
      assert r[|r| - 1] == r[|r| - 1..][0];
    }
  }

  /** The rendering of a command line that starts with the output format and
      the working directory. */
  lemma RenderShape(c: seq<Arg>, fmt: string, dir: string)
    requires |c| >= 3 && c[0] == Flag(Output, fmt) && c[1] == Flag(Cwd, dir)
    ensures var r := ["exec"] + Render(c);
      && |r| >= 5 + |Tokens(c[|c| - 1])|
      && r[0] == "exec" && r[1..5] == ["-o", fmt, "--cwd", dir]
      && r[|r| - |Tokens(c[|c| - 1])|..] == Tokens(c[|c| - 1])
  {
    RenderEnds(c);
    var head := ["exec"] + Tokens(c[0]) + Tokens(c[1]);
    assert head == ["exec", "-o", fmt, "--cwd", dir];
    var mid := Render(c[2..|c| - 1]);
    var last := Tokens(c[|c| - 1]);
    assert ["exec"] + Render(c) == head + mid + last;
    SplitThree(head, mid, last);
    assert head[1..5] == ["-o", fmt, "--cwd", dir];
  }

  /** The two ends of a sequence made of three parts. */
  lemma SplitThree<T>(a: seq<T>, m: seq<T>, b: seq<T>)
    ensures (a + m + b)[..|a|] == a
    ensures (a + m + b)[|a| + |m|..] == b
  {
  }

  /** The rendering of a command line of three items or more, split into
      its first two items, the middle and the last item. */
  lemma {:induction false} RenderEnds(c: seq<Arg>)
    requires |c| >= 3
    ensures Render(c) == Tokens(c[0]) + Tokens(c[1]) + Render(c[2..|c| - 1]) + Tokens(c[|c| - 1])
  {
    var last := c[|c| - 1];
    var mid := c[2..|c| - 1];
    assert c == [c[0]] + ([c[1]] + (mid + [last]));
    RenderCons(c[0], [c[1]] + (mid + [last]));
    RenderCons(c[1], mid + [last]);
    RenderConcat(mid, [last]);
    RenderCons(last, []);
    assert [last] + [] == [last];
  }

  lemma RenderCons(a: Arg, rest: seq<Arg>)
    ensures Render([a] + rest) == Tokens(a) + Render(rest)
  {
    assert ([a] + rest)[1..] == rest;
  }

  // ----------------------------------------------------------- read-back

  /** What a command-line parser sees: the last value of each value flag,
      the switches present, and the remaining words in order. */
  datatype CliView = CliView(values: map<ValueFlag, string>, switches: set<SwitchFlag>, positional: seq<string>)

  const EmptyView := CliView(map[], {}, [])

  /** Two views one after the other: a later value of a flag wins. */
  function Combine(x: CliView, y: CliView): CliView {
    CliView(x.values + y.values, x.switches + y.switches, x.positional + y.positional)
  }

  /** Reading argument strings left to right; a value flag takes the next
      string as its value whatever it is. */
  function ParseArgs(tokens: seq<string>): CliView
    decreases |tokens|
  {
    if |tokens| == 0 then EmptyView
    else match ValueFlagOf(tokens[0])
      case Some(f) =>
        if |tokens| >= 2 then Combine(CliView(map[f := tokens[1]], {}, []), ParseArgs(tokens[2..]))
        else CliView(map[], {}, [tokens[0]])
      case None =>
        match SwitchFlagOf(tokens[0])
        case Some(s) => Combine(CliView(map[], {s}, []), ParseArgs(tokens[1..]))
        case None => Combine(CliView(map[], {}, [tokens[0]]), ParseArgs(tokens[1..]))
  }

  /** The parser's view of a full argument vector (after the subcommand). */
  function ReadBack(argv: seq<string>): CliView
    requires |argv| > 0
  {
    ParseArgs(argv[1..])
  }

  /** What one item contributes to the parser's view. */
  function ViewOf(a: Arg): CliView {
    match a
    case Flag(f, v) => CliView(map[f := v], {}, [])
    case Switch(s) => CliView(map[], {s}, [])
    case Plain(t) => CliView(map[], {}, [t])
  }

  function Interpret(args: seq<Arg>): CliView
    decreases |args|
  {
    if |args| == 0 then EmptyView else Combine(ViewOf(args[0]), Interpret(args[1..]))
  }

  /** No plain word of the command line looks like a flag. */
  predicate Unambiguous(args: seq<Arg>) {
    forall i :: 0 <= i < |args| && args[i].Plain? ==> !IsFlag(args[i].text)
  }

  /** The parser reads an unambiguous command line item by item. */
  lemma {:induction false} ParseRender(args: seq<Arg>)
    requires Unambiguous(args)
    ensures ParseArgs(Render(args)) == Interpret(args)
    decreases |args|
  {
    if |args| > 0 {
      var rest := Render(args[1..]);
      assert Unambiguous(args[1..]) by {
        forall i | 0 <= i < |args[1..]| ensures args[1..][i] == args[i + 1] {}
      }
      ParseRender(args[1..]);
      var ts := Tokens(args[0]) + rest;
      match args[0]
      case Flag(f, v) =>
        SpellingsRecognised(f, UseSpec);
        assert ts[0] == ValueSpelling(f) && ts[1] == v && ts[2..] == rest;
      case Switch(s) =>
        SpellingsRecognised(Output, s);
        assert ts[0] == SwitchSpelling(s) && ts[1..] == rest;
      case Plain(t) =>
        assert ts[0] == t && ts[1..] == rest;
    }
  }

  lemma UnambiguousConcat(a: seq<Arg>, b: seq<Arg>)
    requires Unambiguous(a) && Unambiguous(b)
    ensures Unambiguous(a + b)
  {
    forall i | 0 <= i < |a + b| ensures (a + b)[i] == if i < |a| then a[i] else b[i - |a|] {}
  }

  lemma CombineEmpty(x: CliView)
    ensures Combine(x, EmptyView) == x && Combine(EmptyView, x) == x
  {
    assert x.values + map[] == x.values;
    assert map[] + x.values == x.values;
    assert x.positional + [] == x.positional;
  }

  /** The view with the option's flag in front, when the option is set. */
  function WithFlag(f: ValueFlag, o: Option<string>, v: CliView): CliView {
    if o.Some? then Combine(CliView(map[f := o.value], {}, []), v) else v
  }

  lemma InterpretFlag(f: ValueFlag, x: string, rest: seq<Arg>)
    ensures Interpret([Flag(f, x)] + rest) == WithFlag(f, Some(x), Interpret(rest))
  {
    assert ([Flag(f, x)] + rest)[1..] == rest;
  }

  lemma InterpretSwitch(s: SwitchFlag, rest: seq<Arg>)
    ensures Interpret([Switch(s)] + rest) == Combine(CliView(map[], {s}, []), Interpret(rest))
  {
    assert ([Switch(s)] + rest)[1..] == rest;
  }

  lemma InterpretOptFlag(f: ValueFlag, o: Option<string>, rest: seq<Arg>)
    ensures Interpret(OptFlag(f, o) + rest) == WithFlag(f, o, Interpret(rest))
  {
    if o.Some? {
      InterpretFlag(f, o.value, rest);
    } else {
      assert OptFlag(f, o) + rest == rest;
    }
  }

  lemma {:induction false} InterpretPlains(texts: seq<string>, rest: seq<Arg>)
    ensures Interpret(Plains(texts) + rest) == Combine(CliView(map[], {}, texts), Interpret(rest))
    decreases |texts|
  {
    if |texts| == 0 {
      assert Plains(texts) + rest == rest;
      CombineEmpty(Interpret(rest));
      assert CliView(map[], {}, texts) == EmptyView;
    } else {
      var tail := Plains(texts[1..]) + rest;
      PlainsCons(texts, rest);
      InterpretPlain(texts[0], tail);
      InterpretPlains(texts[1..], rest);
      WordsCombine(texts, Interpret(rest));
    }
  }

  lemma InterpretPlain(t: string, rest: seq<Arg>)
    ensures Interpret([Plain(t)] + rest) == Combine(CliView(map[], {}, [t]), Interpret(rest))
  {
    assert ([Plain(t)] + rest)[1..] == rest;
  }

  /** Words in front of a view, the first one and then the others. */
  lemma WordsCombine(texts: seq<string>, v: CliView)
    requires |texts| > 0
    ensures Combine(CliView(map[], {}, [texts[0]]), Combine(CliView(map[], {}, texts[1..]), v))
              == Combine(CliView(map[], {}, texts), v)
  {
    assert map[] + (map[] + v.values) == map[] + v.values;
    assert [texts[0]] + (texts[1..] + v.positional) == texts + v.positional;
  }

  lemma PlainsCons(texts: seq<string>, rest: seq<Arg>)
    requires |texts| > 0
    ensures Plains(texts) + rest == [Plain(texts[0])] + (Plains(texts[1..]) + rest)
  {
    assert Plains(texts) == [Plain(texts[0])] + Plains(texts[1..]);
  }

  /** The command line reads back unambiguously when no extra argument,
      and no prompt that is passed as a word, spells one of the flags. */
  predicate PlainWordsAreNotFlags(opts: Options, prompt: string) {
    && (forall i :: 0 <= i < |opts.additionalArgs| ==> !IsFlag(opts.additionalArgs[i]))
    && (opts.file.None? ==> !IsFlag(prompt))
  }

  lemma UnambiguousCommand(opts: Options, prompt: string)
    requires PlainWordsAreNotFlags(opts, prompt)
    ensures Unambiguous(Command(opts, prompt))
  {
    var head := [Flag(Output, opts.outputFormat.GetOr(DefaultOutputFormat)), Flag(Cwd, opts.workingDir)];
    var perm := PermissionArgs(opts);
    var reason := OptFlag(Reasoning, opts.reasoningEffort);
    var spec := SpecArgs(opts);
    var model := OptFlag(Model, opts.model);
    var enabled := OptFlag(EnabledTools, opts.enabledTools);
    var disabled := OptFlag(DisabledTools, opts.disabledTools);
    var session := OptFlag(SessionId, opts.sessionId);
    var extra := Plains(opts.additionalArgs);
    var task := TaskArgs(opts, prompt);
    UnambiguousConcat(extra, task);
    UnambiguousConcat(session, extra + task);
    UnambiguousConcat(disabled, session + (extra + task));
    UnambiguousConcat(enabled, disabled + (session + (extra + task)));
    UnambiguousConcat(model, enabled + (disabled + (session + (extra + task))));
    UnambiguousConcat(spec, model + (enabled + (disabled + (session + (extra + task)))));
    UnambiguousConcat(reason, spec + (model + (enabled + (disabled + (session + (extra + task))))));
    UnambiguousConcat(perm, reason + (spec + (model + (enabled + (disabled + (session + (extra + task)))))));
    UnambiguousConcat(head, perm + (reason + (spec + (model + (enabled + (disabled + (session + (extra + task))))))));
  }

  /** The view holds `flag` exactly when the option is set, with its value. */
  predicate Carries(v: CliView, flag: ValueFlag, option: Option<string>) {
    && (flag in v.values <==> option.Some?)
    && (option.Some? ==> flag in v.values && v.values[flag] == option.value)
  }

  /** Putting a flag in front of a view that lacks it makes the view
      carry the option under that flag. */
  lemma WithFlagSame(f: ValueFlag, o: Option<string>, v: CliView)
    requires Carries(v, f, None)
    ensures Carries(WithFlag(f, o, v), f, o)
  {
  }

  /** Putting a flag in front of a view leaves what it carries under every
      other flag, its switches and its words unchanged. */
  lemma WithFlagOther(f: ValueFlag, o: Option<string>, v: CliView, g: ValueFlag, p: Option<string>)
    requires g != f
    ensures Carries(WithFlag(f, o, v), g, p) <==> Carries(v, g, p)
    ensures WithFlag(f, o, v).switches == v.switches && WithFlag(f, o, v).positional == v.positional
  {
    if o.Some? {
      assert {} + v.switches == v.switches;
      assert [] + v.positional == v.positional;
    }
  }

  /** The view of the last item: the file flag or the prompt as a word. */
  lemma InterpretTask(opts: Options, prompt: string)
    ensures var v := Interpret(TaskArgs(opts, prompt));
      && v.values == (if opts.file.Some? then map[File := opts.file.value] else map[])
      && v.switches == {}
      && v.positional == (if opts.file.None? then [prompt] else [])
  {
    var task := TaskArgs(opts, prompt);
    assert task[1..] == [];
    CombineEmpty(ViewOf(task[0]));
  }

  /** The view the extra arguments and the work item give. */
  function RestView(opts: Options, prompt: string): CliView {
    CliView(if opts.file.Some? then map[File := opts.file.value] else map[], {},
            opts.additionalArgs + (if opts.file.None? then [prompt] else []))
  }

  /** The view the items after the specification-mode ones give. */
  function TailView(opts: Options, prompt: string): CliView {
    WithFlag(Model, opts.model,
      WithFlag(EnabledTools, opts.enabledTools,
        WithFlag(DisabledTools, opts.disabledTools,
          WithFlag(SessionId, opts.sessionId, RestView(opts, prompt)))))
  }

  lemma InterpretRest(opts: Options, prompt: string)
    ensures Interpret(Plains(opts.additionalArgs) + TaskArgs(opts, prompt)) == RestView(opts, prompt)
  {
    var task := TaskArgs(opts, prompt);
    InterpretTask(opts, prompt);
    var v9 := Interpret(task);
    InterpretPlains(opts.additionalArgs, task);
    assert map[] + v9.values == v9.values;
  }

  lemma InterpretTail(opts: Options, prompt: string)
    ensures Interpret(TailArgs(opts, prompt)) == TailView(opts, prompt)
  {
    var t8 := Plains(opts.additionalArgs) + TaskArgs(opts, prompt);
    var t7 := OptFlag(SessionId, opts.sessionId) + t8;
    var t6 := OptFlag(DisabledTools, opts.disabledTools) + t7;
    var t5 := OptFlag(EnabledTools, opts.enabledTools) + t6;
    InterpretRest(opts, prompt);
    InterpretOptFlag(SessionId, opts.sessionId, t8);
    InterpretOptFlag(DisabledTools, opts.disabledTools, t7);
    InterpretOptFlag(EnabledTools, opts.enabledTools, t6);
    InterpretOptFlag(Model, opts.model, t5);
  }

  /** Under a flag other than the four optional ones, the tail carries
      what the extra arguments and the work item carry. */
  lemma TailViewOther(opts: Options, prompt: string, g: ValueFlag, p: Option<string>)
    requires g !in {Model, EnabledTools, DisabledTools, SessionId}
    ensures Carries(TailView(opts, prompt), g, p) <==> Carries(RestView(opts, prompt), g, p)
    ensures TailView(opts, prompt).switches == {}
    ensures TailView(opts, prompt).positional == RestView(opts, prompt).positional
  {
    var v8 := RestView(opts, prompt);
    var v7 := WithFlag(SessionId, opts.sessionId, v8);
    var v6 := WithFlag(DisabledTools, opts.disabledTools, v7);
    var v5 := WithFlag(EnabledTools, opts.enabledTools, v6);
    WithFlagOther(SessionId, opts.sessionId, v8, g, p);
    WithFlagOther(DisabledTools, opts.disabledTools, v7, g, p);
    WithFlagOther(EnabledTools, opts.enabledTools, v6, g, p);
    WithFlagOther(Model, opts.model, v5, g, p);
  }

  /** What the tail of the command line carries. */
  lemma TailViewCarries(opts: Options, prompt: string)
    ensures var v := TailView(opts, prompt);
      && v.switches == {}
      && v.positional == opts.additionalArgs + (if opts.file.None? then [prompt] else [])
      && Carries(v, Model, opts.model)
      && Carries(v, EnabledTools, opts.enabledTools)
      && Carries(v, DisabledTools, opts.disabledTools)
      && Carries(v, SessionId, opts.sessionId)
      && Carries(v, File, opts.file)
      && forall g :: g in {Output, Cwd, Auto, Reasoning, SpecModel} ==> Carries(v, g, None)
  {
    var v := TailView(opts, prompt);
    TailViewOther(opts, prompt, File, opts.file);
    forall g | g in {Output, Cwd, Auto, Reasoning, SpecModel} ensures Carries(v, g, None) {
      TailViewOther(opts, prompt, g, None);
    }
    TailViewOwn(opts, prompt);
  }

  /** The four optional flags of the tail come back as set. */
  lemma TailViewOwn(opts: Options, prompt: string)
    ensures var v := TailView(opts, prompt);
      && Carries(v, Model, opts.model)
      && Carries(v, EnabledTools, opts.enabledTools)
      && Carries(v, DisabledTools, opts.disabledTools)
      && Carries(v, SessionId, opts.sessionId)
  {
    var v8 := RestView(opts, prompt);
    var v7 := WithFlag(SessionId, opts.sessionId, v8);
    var v6 := WithFlag(DisabledTools, opts.disabledTools, v7);
    var v5 := WithFlag(EnabledTools, opts.enabledTools, v6);
    WithFlagSame(SessionId, opts.sessionId, v8);
    WithFlagOther(DisabledTools, opts.disabledTools, v7, SessionId, opts.sessionId);
    WithFlagOther(EnabledTools, opts.enabledTools, v6, SessionId, opts.sessionId);
    WithFlagOther(Model, opts.model, v5, SessionId, opts.sessionId);
    WithFlagOther(SessionId, opts.sessionId, v8, DisabledTools, None);
    WithFlagSame(DisabledTools, opts.disabledTools, v7);
    WithFlagOther(EnabledTools, opts.enabledTools, v6, DisabledTools, opts.disabledTools);
    WithFlagOther(Model, opts.model, v5, DisabledTools, opts.disabledTools);
    WithFlagOther(SessionId, opts.sessionId, v8, EnabledTools, None);
    WithFlagOther(DisabledTools, opts.disabledTools, v7, EnabledTools, None);
    WithFlagSame(EnabledTools, opts.enabledTools, v6);
    WithFlagOther(Model, opts.model, v5, EnabledTools, opts.enabledTools);
    WithFlagOther(SessionId, opts.sessionId, v8, Model, None);
    WithFlagOther(DisabledTools, opts.disabledTools, v7, Model, None);
    WithFlagOther(EnabledTools, opts.enabledTools, v6, Model, None);
    WithFlagSame(Model, opts.model, v5);
  }

  /** The view with a switch in front. */
  function WithSwitch(sw: SwitchFlag, v: CliView): CliView {
    Combine(CliView(map[], {sw}, []), v)
  }

  lemma WithSwitchFacts(sw: SwitchFlag, v: CliView, g: ValueFlag, p: Option<string>)
    ensures Carries(WithSwitch(sw, v), g, p) <==> Carries(v, g, p)
    ensures WithSwitch(sw, v).switches == v.switches + {sw}
    ensures WithSwitch(sw, v).positional == v.positional
  {
    assert map[] + v.values == v.values;
    assert [] + v.positional == v.positional;
  }

  /** The view of the permission items in front of `v`. */
  function PermissionView(opts: Options, v: CliView): CliView {
    if opts.skipPermissionsUnsafe then WithSwitch(SkipPermissions, v) else WithFlag(Auto, opts.auto, v)
  }

  /** The view of the specification-mode items in front of `v`. */
  function SpecView(opts: Options, v: CliView): CliView {
    if opts.useSpec then WithSwitch(UseSpec, WithFlag(SpecModel, opts.specModel, v)) else v
  }

  /** The view the whole command line gives, item group by item group. */
  function CommandView(opts: Options, prompt: string): CliView {
    WithFlag(Output, Some(opts.outputFormat.GetOr(DefaultOutputFormat)),
      WithFlag(Cwd, Some(opts.workingDir),
        PermissionView(opts,
          WithFlag(Reasoning, opts.reasoningEffort,
            SpecView(opts, TailView(opts, prompt))))))
  }

  lemma InterpretSpecTail(opts: Options, prompt: string)
    ensures Interpret(SpecArgs(opts) + TailArgs(opts, prompt)) == SpecView(opts, TailView(opts, prompt))
  {
    var t := TailArgs(opts, prompt);
    InterpretTail(opts, prompt);
    if opts.useSpec {
      InterpretSpecOn(opts, t);
    } else {
      assert SpecArgs(opts) + t == t;
    }
  }

  lemma InterpretSpecOn(opts: Options, rest: seq<Arg>)
    requires opts.useSpec
    ensures Interpret(SpecArgs(opts) + rest) == WithSwitch(UseSpec, WithFlag(SpecModel, opts.specModel, Interpret(rest)))
  {
    assert SpecArgs(opts) + rest == [Switch(UseSpec)] + (OptFlag(SpecModel, opts.specModel) + rest);
    InterpretSwitch(UseSpec, OptFlag(SpecModel, opts.specModel) + rest);
    InterpretOptFlag(SpecModel, opts.specModel, rest);
  }

  lemma InterpretPermissionTail(opts: Options, rest: seq<Arg>)
    ensures Interpret(PermissionArgs(opts) + rest) == PermissionView(opts, Interpret(rest))
  {
    if opts.skipPermissionsUnsafe {
      InterpretSwitch(SkipPermissions, rest);
    } else {
      InterpretOptFlag(Auto, opts.auto, rest);
    }
  }

  lemma InterpretCommand(opts: Options, prompt: string)
    ensures Interpret(Command(opts, prompt)) == CommandView(opts, prompt)
  {
    var t3 := SpecArgs(opts) + TailArgs(opts, prompt);
    var t2 := OptFlag(Reasoning, opts.reasoningEffort) + t3;
    var t1 := PermissionArgs(opts) + t2;
    InterpretSpecTail(opts, prompt);
    InterpretOptFlag(Reasoning, opts.reasoningEffort, t3);
    InterpretPermissionTail(opts, t2);
    InterpretHead(opts, t1);
  }

  lemma InterpretHead(opts: Options, rest: seq<Arg>)
    ensures Interpret(HeadArgs(opts) + rest) ==
      WithFlag(Output, Some(opts.outputFormat.GetOr(DefaultOutputFormat)),
        WithFlag(Cwd, Some(opts.workingDir), Interpret(rest)))
  {
    var fmt := opts.outputFormat.GetOr(DefaultOutputFormat);
    assert HeadArgs(opts) + rest == [Flag(Output, fmt)] + ([Flag(Cwd, opts.workingDir)] + rest);
    InterpretFlag(Cwd, opts.workingDir, rest);
    InterpretFlag(Output, fmt, [Flag(Cwd, opts.workingDir)] + rest);
  }

  /** Under a flag other than the five up front, the command line carries
      what its tail carries. */
  lemma CommandViewOther(opts: Options, prompt: string, g: ValueFlag, p: Option<string>)
    requires g !in {Output, Cwd, Auto, Reasoning, SpecModel}
    ensures Carries(CommandView(opts, prompt), g, p) <==> Carries(TailView(opts, prompt), g, p)
    ensures CommandView(opts, prompt).positional == TailView(opts, prompt).positional
    ensures CommandView(opts, prompt).switches ==
              TailView(opts, prompt).switches
              + (if opts.useSpec then {UseSpec} else {})
              + (if opts.skipPermissionsUnsafe then {SkipPermissions} else {})
  {
    var v4 := TailView(opts, prompt);
    var v3 := SpecView(opts, v4);
    if opts.useSpec {
      WithFlagOther(SpecModel, opts.specModel, v4, g, p);
      WithSwitchFacts(UseSpec, WithFlag(SpecModel, opts.specModel, v4), g, p);
    } else {
      assert v4.switches + {} == v4.switches;
    }
    var v2 := WithFlag(Reasoning, opts.reasoningEffort, v3);
    WithFlagOther(Reasoning, opts.reasoningEffort, v3, g, p);
    var v1 := PermissionView(opts, v2);
    if opts.skipPermissionsUnsafe {
      WithSwitchFacts(SkipPermissions, v2, g, p);
    } else {
      WithFlagOther(Auto, opts.auto, v2, g, p);
      assert v2.switches + {} == v2.switches;
    }
    var v0 := WithFlag(Cwd, Some(opts.workingDir), v1);
    WithFlagOther(Cwd, Some(opts.workingDir), v1, g, p);
    WithFlagOther(Output, Some(opts.outputFormat.GetOr(DefaultOutputFormat)), v0, g, p);
  }

  /** What the front of the command line carries. */
  lemma CommandViewFront(opts: Options, prompt: string)
    ensures var v := CommandView(opts, prompt);
      && Carries(v, Output, Some(opts.outputFormat.GetOr(DefaultOutputFormat)))
      && Carries(v, Cwd, Some(opts.workingDir))
      && Carries(v, Auto, if opts.skipPermissionsUnsafe then None else opts.auto)
      && Carries(v, Reasoning, opts.reasoningEffort)
      && Carries(v, SpecModel, if opts.useSpec then opts.specModel else None)
  {
    TailViewCarries(opts, prompt);
    var v4 := TailView(opts, prompt);
    var v3 := SpecView(opts, v4);
    var v2 := WithFlag(Reasoning, opts.reasoningEffort, v3);
    var v1 := PermissionView(opts, v2);
    var v0 := WithFlag(Cwd, Some(opts.workingDir), v1);
    var fmt := Some(opts.outputFormat.GetOr(DefaultOutputFormat));
    var specModel := if opts.useSpec then opts.specModel else None;
    var auto := if opts.skipPermissionsUnsafe then None else opts.auto;
    // spec model
    if opts.useSpec {
      WithFlagSame(SpecModel, opts.specModel, v4);
      WithSwitchFacts(UseSpec, WithFlag(SpecModel, opts.specModel, v4), SpecModel, specModel);
      WithFlagOther(SpecModel, opts.specModel, v4, Reasoning, None);
      WithSwitchFacts(UseSpec, WithFlag(SpecModel, opts.specModel, v4), Reasoning, None);
      WithFlagOther(SpecModel, opts.specModel, v4, Auto, None);
      WithSwitchFacts(UseSpec, WithFlag(SpecModel, opts.specModel, v4), Auto, None);
      WithFlagOther(SpecModel, opts.specModel, v4, Cwd, None);
      WithSwitchFacts(UseSpec, WithFlag(SpecModel, opts.specModel, v4), Cwd, None);
      WithFlagOther(SpecModel, opts.specModel, v4, Output, None);
      WithSwitchFacts(UseSpec, WithFlag(SpecModel, opts.specModel, v4), Output, None);
    }
    WithFlagOther(Reasoning, opts.reasoningEffort, v3, SpecModel, specModel);
    WithFlagSame(Reasoning, opts.reasoningEffort, v3);
    WithFlagOther(Reasoning, opts.reasoningEffort, v3, Auto, None);
    WithFlagOther(Reasoning, opts.reasoningEffort, v3, Cwd, None);
    WithFlagOther(Reasoning, opts.reasoningEffort, v3, Output, None);
    if opts.skipPermissionsUnsafe {
      WithSwitchFacts(SkipPermissions, v2, SpecModel, specModel);
      WithSwitchFacts(SkipPermissions, v2, Reasoning, opts.reasoningEffort);
      WithSwitchFacts(SkipPermissions, v2, Auto, None);
      WithSwitchFacts(SkipPermissions, v2, Cwd, None);
      WithSwitchFacts(SkipPermissions, v2, Output, None);
    } else {
      WithFlagOther(Auto, opts.auto, v2, SpecModel, specModel);
      WithFlagOther(Auto, opts.auto, v2, Reasoning, opts.reasoningEffort);
      WithFlagSame(Auto, opts.auto, v2);
      WithFlagOther(Auto, opts.auto, v2, Cwd, None);
      WithFlagOther(Auto, opts.auto, v2, Output, None);
    }
    WithFlagOther(Cwd, Some(opts.workingDir), v1, SpecModel, specModel);
    WithFlagOther(Cwd, Some(opts.workingDir), v1, Reasoning, opts.reasoningEffort);
    WithFlagOther(Cwd, Some(opts.workingDir), v1, Auto, auto);
    WithFlagSame(Cwd, Some(opts.workingDir), v1);
    WithFlagOther(Cwd, Some(opts.workingDir), v1, Output, None);
    WithFlagOther(Output, fmt, v0, SpecModel, specModel);
    WithFlagOther(Output, fmt, v0, Reasoning, opts.reasoningEffort);
    WithFlagOther(Output, fmt, v0, Auto, auto);
    WithFlagOther(Output, fmt, v0, Cwd, Some(opts.workingDir));
    WithFlagSame(Output, fmt, v0);
  }

  /** What a faithful reading of the command line for `opts` and `prompt`
      gives: the extra arguments and (without a file) the prompt as the
      words, each switch exactly when its option is on, and every option
      that was set under its own flag, nothing for one that was not.  An
      autonomy level is not sent with the unsafe switch, and a spec model
      only goes with the spec switch. */
  predicate ReadsBackAs(v: CliView, opts: Options, prompt: string) {
    && v.positional == opts.additionalArgs + (if opts.file.None? then [prompt] else [])
    && (SkipPermissions in v.switches <==> opts.skipPermissionsUnsafe)
    && (UseSpec in v.switches <==> opts.useSpec)
    && Carries(v, Output, Some(opts.outputFormat.GetOr(DefaultOutputFormat)))
    && Carries(v, Cwd, Some(opts.workingDir))
    && Carries(v, Auto, if opts.skipPermissionsUnsafe then None else opts.auto)
    && Carries(v, Reasoning, opts.reasoningEffort)
    && Carries(v, SpecModel, if opts.useSpec then opts.specModel else None)
    && Carries(v, Model, opts.model)
    && Carries(v, EnabledTools, opts.enabledTools)
    && Carries(v, DisabledTools, opts.disabledTools)
    && Carries(v, SessionId, opts.sessionId)
    && Carries(v, File, opts.file)
  }

  lemma CommandViewCarries(opts: Options, prompt: string)
    ensures ReadsBackAs(CommandView(opts, prompt), opts, prompt)
  {
    TailViewCarries(opts, prompt);
    CommandViewFront(opts, prompt);
    CommandViewOther(opts, prompt, Model, opts.model);
    CommandViewOther(opts, prompt, EnabledTools, opts.enabledTools);
    CommandViewOther(opts, prompt, DisabledTools, opts.disabledTools);
    CommandViewOther(opts, prompt, SessionId, opts.sessionId);
    CommandViewOther(opts, prompt, File, opts.file);
  }

  /** The round trip of the command line: read back as a parser with the
      same flags reads it, the argument vector gives back every option that
      was set, under its own flag, and nothing for an option that was not. */
  lemma ArgvReadBack(opts: Options, prompt: string)
    requires PlainWordsAreNotFlags(opts, prompt)
    ensures ReadsBackAs(ReadBack(Argv(opts, prompt)), opts, prompt)
  {
    var c := Command(opts, prompt);
    assert Argv(opts, prompt)[1..] == Render(c);
    UnambiguousCommand(opts, prompt);
    ParseRender(c);
    InterpretCommand(opts, prompt);
    CommandViewCarries(opts, prompt);
  }
}

=== FILE: server.dfy ===
/** The `droid` tool's request validation, `DroidServer::droid` in
    `src/server.rs`: from the decoded arguments to the execution options,
    or the reason the request is refused.  The file system it consults is a
    parameter. */
module Server {
  import opened Common
  import opened Launch

  /** The tool's arguments as decoded from the request. */
  datatype DroidArgs = DroidArgs(
    prompt: Option<string>,
    file: Option<string>,
    auto: Option<string>,
    sessionId: Option<string>,
    cwd: Option<string>,
    model: Option<string>,
    enabledTools: Option<string>,
    disabledTools: Option<string>,
    timeoutSecs: Option<nat>,
    reasoningEffort: Option<string>,
    useSpec: Option<bool>,
    specModel: Option<string>,
    skipPermissionsUnsafe: Option<bool>,
    outputFormat: Option<string>)

  /** The parts of the file system the validator looks at. */
  datatype FileSystem = FileSystem(
    currentDir: Result<string, string>,          // the process's directory, or why it is unknown
    isAbsolute: string -> bool,
    join: (string, string) -> string,            // a base directory and a relative path
    canonicalize: string -> Result<string, string>,
    isDir: string -> bool,
    isFile: string -> bool)

  /** Why a request is refused; every refusal is an invalid-parameters
      error whose text is `Message`. */
  datatype Rejection =
    | PromptOrFileRequired
    | BlankPrompt
    | PromptAndFile
    | SkipWithAuto
    | CurrentDirUnknown(reason: string)             // resolving a relative `cwd`
    | WorkingDirInaccessible(path: string, reason: string)
    | CurrentWorkingDirUnknown(reason: string)      // no `cwd` given
    | NotADirectory(path: string)
    | FileInaccessible(path: string, reason: string)
    | NotAFile(path: string)
    | InvalidAuto(level: string)
    | InvalidReasoningEffort(level: string)
    | InvalidOutputFormat(format: string)

  function Message(r: Rejection): string {
    match r
    case PromptOrFileRequired => "Either PROMPT or file parameter is required"
    case BlankPrompt => "PROMPT must be a non-empty, non-whitespace string"
    case PromptAndFile => "PROMPT and file are mutually exclusive, provide only one"
    case SkipWithAuto => "skip_permissions_unsafe cannot be combined with auto parameter"
    case CurrentDirUnknown(e) => "Failed to resolve current directory: " + e
    case WorkingDirInaccessible(p, e) => "Working directory does not exist or is not accessible: " + p + " (" + e + ")"
    case CurrentWorkingDirUnknown(e) => "Failed to resolve current working directory: " + e
    case NotADirectory(p) => "Working directory is not a directory: " + p
    case FileInaccessible(p, e) => "File does not exist or is not accessible: " + p + " (" + e + ")"
    case NotAFile(p) => "File path is not a file: " + p
    case InvalidAuto(l) => "Invalid auto level: '" + l + "'. Must be one of: low, medium, high"
    case InvalidReasoningEffort(l) => "Invalid reasoning_effort: '" + l + "'. Must be one of: low, medium, high"
    case InvalidOutputFormat(f) => "Invalid output_format: '" + f + "'. Must be one of: stream-json, stream-jsonrpc"
  }

  const AutonomyLevels: set<string> := {"low", "medium", "high"}
  const ReasoningLevels: set<string> := {"low", "medium", "high"}
  const OutputFormats: set<string> := {"stream-json", "stream-jsonrpc"}

  /** An empty string counts as absent. */
  function NonEmpty(o: Option<string>): (r: Option<string>)
    ensures r.None? <==> o.None? || o.value == ""
    ensures r.Some? ==> r == o
  {
    match o
    case Some(s) => if s == "" then None else o
    case None => None
  }

  /** A value that is absent or one of the allowed ones. */
  predicate AbsentOrIn(o: Option<string>, allowed: set<string>) {
    o.Some? ==> o.value in allowed
  }

  // ------------------------------------------------------------- the checks

  /** The prompt and the file: exactly one, and a prompt on its own must
      hold more than whitespace.  A blank prompt next to a file is reported
      as the pair, not as blank. */
  function CheckPromptAndFile(prompt: Option<string>, file: Option<string>): (r: Option<Rejection>)
    ensures r.None? <==> (prompt.Some? <==> file.None?) && (prompt.Some? ==> !IsBlank(prompt.value))
    ensures prompt.Some? && file.Some? ==> r == Some(PromptAndFile)
  {
    match (prompt, file)
    case (None, None) => Some(PromptOrFileRequired)
    case (Some(p), None) =>
      TrimEmptyIffBlank(p);
      if Trim(p) == "" then Some(BlankPrompt) else None
    case (Some(_), Some(_)) => Some(PromptAndFile)
    case (None, Some(_)) => None
  }

  /** The working directory: `cwd` made absolute against the current
      directory and canonicalized, or the current directory as it is; in
      both cases it must be a directory. */
  function ResolveWorkingDir(cwd: Option<string>, fs: FileSystem): (r: Result<string, Rejection>)
    ensures r.Ok? ==> fs.isDir(r.value)
    ensures r.Ok? && cwd.Some? ==>
      fs.canonicalize(Resolved(cwd.value, fs)).Ok? && r.value == fs.canonicalize(Resolved(cwd.value, fs)).value
    ensures cwd.None? ==> (r.Ok? <==> fs.currentDir.Ok? && fs.isDir(fs.currentDir.value))
    ensures r.Err? ==>
      r.error.CurrentDirUnknown? || r.error.WorkingDirInaccessible? || r.error.CurrentWorkingDirUnknown? || r.error.NotADirectory?
  {
    var found: Result<string, Rejection> := match cwd
      case Some(c) =>
        if !fs.isAbsolute(c) && fs.currentDir.Err? then Err(CurrentDirUnknown(fs.currentDir.error))
        else
          var resolved := Resolved(c, fs);
          (match fs.canonicalize(resolved)
           case Err(e) => Err(WorkingDirInaccessible(resolved, e))
           case Ok(dir) => Ok(dir))
      case None =>
        match fs.currentDir
        case Err(e) => Err(CurrentWorkingDirUnknown(e))
        case Ok(dir) => Ok(dir);
    match found
    case Err(e) => Err(e)
    case Ok(dir) => if fs.isDir(dir) then Ok(dir) else Err(NotADirectory(dir))
  }

  /** A requested directory before canonicalization: as given when
      absolute, otherwise under the current directory. */
  function Resolved(cwd: string, fs: FileSystem): string {
    if fs.isAbsolute(cwd) || fs.currentDir.Err? then cwd else fs.join(fs.currentDir.value, cwd)
  }

  /** The prompt file: relative paths are taken from the working directory;
      it must exist and be a regular file, and is passed on canonicalized. */
  function ResolveFile(file: Option<string>, workingDir: string, fs: FileSystem): (r: Result<Option<string>, Rejection>)
    ensures file.None? ==> r == Ok(None)
    ensures r.Ok? && file.Some? ==>
      var resolved := if fs.isAbsolute(file.value) then file.value else fs.join(workingDir, file.value);
      && fs.canonicalize(resolved).Ok?
      && r.value == Some(fs.canonicalize(resolved).value)
      && fs.isFile(r.value.value)
    ensures r.Err? ==> file.Some? && (r.error.FileInaccessible? || r.error.NotAFile?)
  {
    match file
    case None => Ok(None)
    case Some(f) =>
      var resolved := if fs.isAbsolute(f) then f else fs.join(workingDir, f);
      match fs.canonicalize(resolved)
      case Err(e) => Err(FileInaccessible(resolved, e))
      case Ok(canonical) => if fs.isFile(canonical) then Ok(Some(canonical)) else Err(NotAFile(resolved))
  }

  /** The value checks, made after empty strings were dropped. */
  function CheckValues(auto: Option<string>, reasoning: Option<string>, format: Option<string>): (r: Option<Rejection>)
    ensures r.None? <==> AbsentOrIn(auto, AutonomyLevels) && AbsentOrIn(reasoning, ReasoningLevels)
                          && AbsentOrIn(format, OutputFormats)
    ensures r == Some(InvalidAuto(auto.GetOr(""))) <==> !AbsentOrIn(auto, AutonomyLevels)
    ensures AbsentOrIn(auto, AutonomyLevels) && !AbsentOrIn(reasoning, ReasoningLevels) ==>
              r == Some(InvalidReasoningEffort(reasoning.value))
    ensures AbsentOrIn(auto, AutonomyLevels) && AbsentOrIn(reasoning, ReasoningLevels)
            && !AbsentOrIn(format, OutputFormats) ==>
              r == Some(InvalidOutputFormat(format.value))
  {
    if auto.Some? && auto.value !in AutonomyLevels then Some(InvalidAuto(auto.value))
    else if reasoning.Some? && reasoning.value !in ReasoningLevels then Some(InvalidReasoningEffort(reasoning.value))
    else if format.Some? && format.value !in OutputFormats then Some(InvalidOutputFormat(format.value))
    else None
  }

  // ------------------------------------------------------------- the validator

  /** The checks made on the request alone, before any path is resolved:
      prompt and file, and the unsafe switch against `auto`. */
  predicate PassesRequestChecks(args: DroidArgs) {
    CheckPromptAndFile(args.prompt, args.file).None?
      && !(args.skipPermissionsUnsafe == Some(true) && args.auto.Some?)
  }

  /** `DroidServer::droid` up to the call into the runner: the checks in the
      source's order, then the options.  `defaultArgs` are the configured
      extra arguments. */
  function Validate(args: DroidArgs, fs: FileSystem, defaultArgs: seq<string>): (r: Result<Options, Rejection>)
    ensures args.prompt.None? && args.file.None? ==> r == Err(PromptOrFileRequired)
    ensures args.prompt.Some? && args.file.Some? ==> r == Err(PromptAndFile)
    ensures args.prompt.Some? && args.file.None? && IsBlank(args.prompt.value) ==> r == Err(BlankPrompt)
    ensures CheckPromptAndFile(args.prompt, args.file).None? ==>
      (args.skipPermissionsUnsafe == Some(true) && args.auto.Some? ==> r == Err(SkipWithAuto))
    ensures PassesRequestChecks(args) && ResolveWorkingDir(args.cwd, fs).Err? ==>
      r == Err(ResolveWorkingDir(args.cwd, fs).error)
    ensures PassesRequestChecks(args) && ResolveWorkingDir(args.cwd, fs).Ok? ==>
      var dir := ResolveWorkingDir(args.cwd, fs).value;
      ResolveFile(args.file, dir, fs).Err? ==> r == Err(ResolveFile(args.file, dir, fs).error)
    ensures PassesRequestChecks(args) && ResolveWorkingDir(args.cwd, fs).Ok? ==>
      var dir := ResolveWorkingDir(args.cwd, fs).value;
      var values := CheckValues(NonEmpty(args.auto), NonEmpty(args.reasoningEffort), NonEmpty(args.outputFormat));
      ResolveFile(args.file, dir, fs).Ok? && values.Some? ==> r == Err(values.value)
    ensures r.Ok? ==>
      var o := r.value;
      && (o.prompt.Some? <==> o.file.None?)
      && (o.prompt.Some? ==> !IsBlank(o.prompt.value))
      && !(o.skipPermissionsUnsafe && args.auto.Some?)
      && AbsentOrIn(o.auto, AutonomyLevels)
      && AbsentOrIn(o.reasoningEffort, ReasoningLevels)
      && AbsentOrIn(o.outputFormat, OutputFormats)
      && fs.isDir(o.workingDir)
      && (o.file.Some? ==> fs.isFile(o.file.value))
  {
    var pf := CheckPromptAndFile(args.prompt, args.file);
    if pf.Some? then Err(pf.value)
    else
      var skip := args.skipPermissionsUnsafe.GetOr(false);
      if skip && args.auto.Some? then Err(SkipWithAuto)
      else
        match ResolveWorkingDir(args.cwd, fs)
        case Err(e) => Err(e)
        case Ok(workingDir) =>
          match ResolveFile(args.file, workingDir, fs)
          case Err(e) => Err(e)
          case Ok(filePath) =>
            var auto := NonEmpty(args.auto);
            var reasoning := NonEmpty(args.reasoningEffort);
            var format := NonEmpty(args.outputFormat);
            match CheckValues(auto, reasoning, format)
            case Some(e) => Err(e)
            case None =>
              Ok(Options(
                prompt := args.prompt,
                file := filePath,
                workingDir := workingDir,
                sessionId := NonEmpty(args.sessionId),
                auto := auto,
                model := NonEmpty(args.model),
                enabledTools := NonEmpty(args.enabledTools),
                disabledTools := NonEmpty(args.disabledTools),
                additionalArgs := defaultArgs,
                timeoutSecs := args.timeoutSecs,
                reasoningEffort := reasoning,
                useSpec := args.useSpec.GetOr(false),
                specModel := NonEmpty(args.specModel),
                skipPermissionsUnsafe := skip,
                outputFormat := format))
  }

  /** The request is acceptable: each check, stated on its own. */
  predicate Acceptable(args: DroidArgs, fs: FileSystem) {
    && (args.prompt.Some? <==> args.file.None?)
    && (args.prompt.Some? ==> !IsBlank(args.prompt.value))
    && !(args.skipPermissionsUnsafe == Some(true) && args.auto.Some?)
    && ResolveWorkingDir(args.cwd, fs).Ok?
    && ResolveFile(args.file, ResolveWorkingDir(args.cwd, fs).value, fs).Ok?
    && AbsentOrIn(NonEmpty(args.auto), AutonomyLevels)
    && AbsentOrIn(NonEmpty(args.reasoningEffort), ReasoningLevels)
    && AbsentOrIn(NonEmpty(args.outputFormat), OutputFormats)
  }

  /** A request is accepted exactly when every check passes, and then the
      options carry its values: text fields with empty strings dropped,
      the switches defaulting to off, the configured extra arguments. */
  lemma ValidateAcceptsExactly(args: DroidArgs, fs: FileSystem, defaultArgs: seq<string>)
    ensures Validate(args, fs, defaultArgs).Ok? <==> Acceptable(args, fs)
    ensures Validate(args, fs, defaultArgs).Ok? ==>
      var o := Validate(args, fs, defaultArgs).value;
      && o.prompt == args.prompt
      && o.workingDir == ResolveWorkingDir(args.cwd, fs).value
      && o.file == ResolveFile(args.file, o.workingDir, fs).value
      && o.sessionId == NonEmpty(args.sessionId)
      && o.auto == NonEmpty(args.auto)
      && o.model == NonEmpty(args.model)
      && o.enabledTools == NonEmpty(args.enabledTools)
      && o.disabledTools == NonEmpty(args.disabledTools)
      && o.additionalArgs == defaultArgs
      && o.timeoutSecs == args.timeoutSecs
      && o.reasoningEffort == NonEmpty(args.reasoningEffort)
      && o.useSpec == (args.useSpec == Some(true))
      && o.specModel == NonEmpty(args.specModel)
      && o.skipPermissionsUnsafe == (args.skipPermissionsUnsafe == Some(true))
      && o.outputFormat == NonEmpty(args.outputFormat)
  {
    var _ := CheckPromptAndFile(args.prompt, args.file);
  }

  /** Every optional text the options carry is non-empty. */
  lemma AcceptedTextsAreNonEmpty(args: DroidArgs, fs: FileSystem, defaultArgs: seq<string>)
    requires Validate(args, fs, defaultArgs).Ok?
    ensures var o := Validate(args, fs, defaultArgs).value;
      && (o.sessionId.Some? ==> o.sessionId.value != "")
      && (o.auto.Some? ==> o.auto.value != "")
      && (o.model.Some? ==> o.model.value != "")
      && (o.enabledTools.Some? ==> o.enabledTools.value != "")
      && (o.disabledTools.Some? ==> o.disabledTools.value != "")
      && (o.reasoningEffort.Some? ==> o.reasoningEffort.value != "")
      && (o.specModel.Some? ==> o.specModel.value != "")
      && (o.outputFormat.Some? ==> o.outputFormat.value != "")
  {
    ValidateAcceptsExactly(args, fs, defaultArgs);
  }

  /** The request with every empty text but `auto` dropped. */
  function DropEmptyTexts(args: DroidArgs): DroidArgs {
    args.(sessionId := NonEmpty(args.sessionId), model := NonEmpty(args.model),
          enabledTools := NonEmpty(args.enabledTools), disabledTools := NonEmpty(args.disabledTools),
          reasoningEffort := NonEmpty(args.reasoningEffort), specModel := NonEmpty(args.specModel),
          outputFormat := NonEmpty(args.outputFormat))
  }

  /** An empty string is the same as leaving the argument out, for every
      text argument but `auto`. */
  lemma EmptyTextIsAbsent(args: DroidArgs, fs: FileSystem, defaultArgs: seq<string>)
    ensures Validate(DropEmptyTexts(args), fs, defaultArgs) == Validate(args, fs, defaultArgs)
  {
    var d := DropEmptyTexts(args);
    assert NonEmpty(d.sessionId) == NonEmpty(args.sessionId);
    assert NonEmpty(d.reasoningEffort) == NonEmpty(args.reasoningEffort);
    assert NonEmpty(d.outputFormat) == NonEmpty(args.outputFormat);
  }

  /** For `auto` it is the same only while permissions are not skipped:
      the unsafe switch is refused next to any `auto`, even an empty one,
      because that check comes before empty strings are dropped. */
  lemma EmptyAutoNextToSkip(args: DroidArgs, fs: FileSystem, defaultArgs: seq<string>)
    requires CheckPromptAndFile(args.prompt, args.file).None?
    ensures args.skipPermissionsUnsafe != Some(true) ==>
      Validate(args.(auto := Some("")), fs, defaultArgs) == Validate(args.(auto := None), fs, defaultArgs)
    ensures args.skipPermissionsUnsafe == Some(true) ==>
      && Validate(args.(auto := Some("")), fs, defaultArgs) == Err(SkipWithAuto)
      && Validate(args.(auto := None), fs, defaultArgs) != Err(SkipWithAuto)
  {
    var none := args.(auto := None);
    var r := Validate(none, fs, defaultArgs);
    if args.skipPermissionsUnsafe == Some(true) && r.Err? {
      ValidateRejections(none, fs, defaultArgs);
    }
  }

  /** A refusal other than the first three names a check that the request
      reached: the unsafe switch next to `auto`, a path, or a value. */
  lemma ValidateRejections(args: DroidArgs, fs: FileSystem, defaultArgs: seq<string>)
    requires Validate(args, fs, defaultArgs).Err?
    ensures var e := Validate(args, fs, defaultArgs).error;
      e == SkipWithAuto ==> args.skipPermissionsUnsafe == Some(true) && args.auto.Some?
    ensures var e := Validate(args, fs, defaultArgs).error;
      e.InvalidAuto? ==> args.auto == Some(e.level) && e.level != "" && e.level !in AutonomyLevels
  {
  }
}

=== FILE: stream.dfy ===
/** The stream aggregator of `run_internal` in `src/droid.rs`: the fold over
    the agent's standard-output events that collects the session id, the
    failure signal, the agent-visible text and the raw event archive, and
    the separate fold that captures standard error.  Reading and JSON
    decoding are I/O; each stdout line arrives here already classified. */
module Stream {
  import opened Common
  import opened Utf8

  /** Cap on the agent-visible text (10 MiB). */
  const MaxAgentMessagesSize: nat := 10 * 1024 * 1024
  /** Cap on the running serialized size of the archive (50 MiB). */
  const MaxAllMessagesSize: nat := 50 * 1024 * 1024
  /** Cap on the captured standard-error text. */
  const MaxStderrSize: nat := 100_000

  const TruncationMarker := "\n[... Agent messages truncated due to size limit ...]"
  const ErrorPrefix := "droid error: "

  /** What the `type` field (and the fields that go with it) says. */
  datatype Kind =
    | Untyped                                        // no string `type` field
    | ErrorEvent(message: Option<string>)            // "error", with `message`
    | Completion(finalText: Option<string>)          // "completion", with `finalText`
    | MessageEvent(role: Option<string>, text: Option<string>)  // "message"
    | OtherType(name: string)                        // any other `type`

  /** One decoded JSON document from standard output.  `archiveSize` is the
      length of its re-serialization when it is a JSON object, and `None`
      when it is some other JSON value, which the archive cannot hold. */
  datatype Event = Event(sessionId: Option<string>, kind: Kind, archiveSize: Option<nat>)

  /** One line of standard output. */
  datatype Line =
    | Blank               // only whitespace
    | Malformed           // not a JSON document
    | Parsed(event: Event)

  /** The agent-visible text and whether it has been cut off. */
  datatype AgentText = AgentText(text: string, truncated: bool)

  /** The raw archive: the kept events, their running serialized size, and
      whether some event was ever turned away. */
  datatype Archive = Archive(events: seq<Event>, bytes: nat, truncated: bool)

  /** The result under construction while the stream is drained. */
  datatype Aggregation = Aggregation(
    success: bool,
    sessionId: string,
    agent: AgentText,
    archive: Archive,
    error: Option<string>)

  const Initial := Aggregation(true, "", AgentText("", false), Archive([], 0, false), None)

  // ---------------------------------------------------------------- session

  /** The session id a line carries ("" for none). */
  function SessionOf(line: Line): string {
    if line.Parsed? && line.event.sessionId.Some? then line.event.sessionId.value else ""
  }

  /** First non-empty session id wins. */
  function RecordSession(current: string, offered: string): (r: string)
    ensures current != "" ==> r == current
    ensures current == "" ==> r == offered
  {
    if offered != "" && current == "" then offered else current
  }

  // ----------------------------------------------------------------- errors

  predicate IsErrorLine(line: Line) {
    line.Parsed? && line.event.kind.ErrorEvent?
  }

  /** The message of an `error` event, when it has one. */
  function ErrorMessageOf(line: Line): Option<string> {
    if IsErrorLine(line) then line.event.kind.message else None
  }

  // ------------------------------------------------------------ agent text

  /** The agent-visible text an event contributes: a completion's final text
      or an assistant message's text. */
  function Fragment(ev: Event): Option<string> {
    match ev.kind
    case Completion(t) => t
    case MessageEvent(role, t) => if role == Some("assistant") then t else None
    case _ => None
  }

  function FragmentOf(line: Line): Option<string> {
    if line.Parsed? then Fragment(line.event) else None
  }

  /** Appending with the separator rule: a newline goes between the two only
      when both are non-empty. */
  function Join(text: string, fragment: string): (r: string)
    ensures Utf8Len(r) == Utf8Len(text) + Utf8Len(fragment)
              + (if text != "" && fragment != "" then 1 else 0)
  {
    Utf8LenConcat(text, fragment);
    if text != "" && fragment != "" then
      Utf8LenConcat(text, "\n");
      Utf8LenConcat(text + "\n", fragment);
      text + "\n" + fragment
    else text + fragment
  }

  /** The encoded size of the marker. */
  const MarkerBytes: nat := Utf8Len(TruncationMarker)

  /** The size promise for the agent text: below the cap plus one separator
      byte while open, and at most the marker above that once cut off. */
  predicate AgentBounded(a: AgentText) {
    && (!a.truncated ==> Utf8Len(a.text) <= MaxAgentMessagesSize + 1)
    && (a.truncated ==> Utf8Len(a.text) <= MaxAgentMessagesSize + 1 + MarkerBytes)
  }

  /** One append under the size policy.  The check compares the current
      length plus the fragment against the cap, without the separator. */
  function AppendText(a: AgentText, fragment: string): (r: AgentText)
    ensures a.truncated ==> r == a
    ensures r.truncated ==> a.truncated || r.text == a.text + TruncationMarker
    ensures r.truncated <==> a.truncated || Utf8Len(a.text) + Utf8Len(fragment) > MaxAgentMessagesSize
    ensures !r.truncated ==>
              && Utf8Len(a.text) + Utf8Len(fragment) <= MaxAgentMessagesSize
              && r.text == Join(a.text, fragment)
  {
    if Utf8Len(a.text) + Utf8Len(fragment) > MaxAgentMessagesSize then
      if !a.truncated then AgentText(a.text + TruncationMarker, true)
      else a
    else if !a.truncated then AgentText(Join(a.text, fragment), false)
    else a
  }

  /** Appending keeps the size promise. */
  lemma AppendTextBounded(a: AgentText, fragment: string)
    requires AgentBounded(a)
    ensures AgentBounded(AppendText(a, fragment))
  {
    var r := AppendText(a, fragment);
    if r.truncated && !a.truncated {
      Utf8LenConcat(a.text, TruncationMarker);
    }
  }

  // ---------------------------------------------------------------- archive

  function SizeOf(ev: Event): nat {
    ev.archiveSize.GetOr(0)
  }

  /** Total serialized size of the objects among `events`. */
  function TotalSize(events: seq<Event>): nat {
    if |events| == 0 then 0 else SizeOf(events[0]) + TotalSize(events[1..])
  }

  lemma {:induction false} TotalSizeConcat(a: seq<Event>, b: seq<Event>)
    ensures TotalSize(a + b) == TotalSize(a) + TotalSize(b)
  {
    if |a| == 0 {
      assert a + b == b;
    } else {
      assert (a + b)[0] == a[0];
      assert (a + b)[1..] == a[1..] + b;
      TotalSizeConcat(a[1..], b);
    }
  }

  /** The archive's running size matches what it holds and keeps to the cap. */
  predicate ArchiveConsistent(ar: Archive) {
    ar.bytes == TotalSize(ar.events) && ar.bytes <= MaxAllMessagesSize
  }

  /** One event offered to the archive.  An object is kept whenever it fits,
      whether or not an earlier one was turned away; one that does not fit
      sets the flag. */
  function ArchivePush(ar: Archive, ev: Event): (r: Archive)
    ensures ev.archiveSize.None? ==> r == ar
    ensures ev.archiveSize.Some? && ar.bytes + ev.archiveSize.value <= MaxAllMessagesSize ==>
              r == Archive(ar.events + [ev], ar.bytes + ev.archiveSize.value, ar.truncated)
    ensures ev.archiveSize.Some? && ar.bytes + ev.archiveSize.value > MaxAllMessagesSize ==>
              r == ar.(truncated := true)
    ensures ArchiveConsistent(ar) ==> ArchiveConsistent(r)
  {
    match ev.archiveSize
    case None => ar
    case Some(n) =>
      if ar.bytes + n <= MaxAllMessagesSize then
        TotalSizeConcat(ar.events, [ev]);
        assert TotalSize([ev]) == n;
        Archive(ar.events + [ev], ar.bytes + n, ar.truncated)
      else if !ar.truncated then ar.(truncated := true)
      else ar
  }

  // ------------------------------------------------------------------- fold

  /** Everything one stdout line does to the aggregation. */
  function Step(st: Aggregation, line: Line): (r: Aggregation)
    ensures !line.Parsed? ==> r == st
    ensures r.sessionId == RecordSession(st.sessionId, SessionOf(line))
    ensures r.success == (st.success && !IsErrorLine(line))
    ensures r.error == (if ErrorMessageOf(line).Some? then Some(ErrorPrefix + ErrorMessageOf(line).value) else st.error)
    ensures r.agent == (if FragmentOf(line).Some? then AppendText(st.agent, FragmentOf(line).value) else st.agent)
    ensures line.Parsed? ==> r.archive == ArchivePush(st.archive, line.event)
  {
    match line
    case Blank => st
    case Malformed => st
    case Parsed(ev) =>
      var sessionId := RecordSession(st.sessionId, SessionOf(line));
      var success := if ev.kind.ErrorEvent? then false else st.success;
      var error :=
        if ev.kind.ErrorEvent? && ev.kind.message.Some? then Some(ErrorPrefix + ev.kind.message.value)
        else st.error;
      var agent := match Fragment(ev)
        case Some(t) => AppendText(st.agent, t)
        case None => st.agent;
      Aggregation(success, sessionId, agent, ArchivePush(st.archive, ev), error)
  }

  /** An error is only ever recorded together with failure. */
  predicate ErrorMeansFailure(st: Aggregation) {
    st.error.Some? ==> !st.success
  }

  /** What one step keeps: the cut-off text, the size promises, the
      archive's flag and contents so far, and failure with every error. */
  lemma StepKeeps(st: Aggregation, line: Line)
    ensures var r := Step(st, line);
      && (st.agent.truncated ==> r.agent == st.agent)
      && (AgentBounded(st.agent) ==> AgentBounded(r.agent))
      && (st.archive.truncated ==> r.archive.truncated)
      && (ArchiveConsistent(st.archive) ==> ArchiveConsistent(r.archive))
      && |st.archive.events| <= |r.archive.events|
      && r.archive.events[..|st.archive.events|] == st.archive.events
      && (ErrorMeansFailure(st) ==> ErrorMeansFailure(r))
  {
    if line.Parsed? {
      var ar := Step(st, line).archive;
      assert ar.events[..|st.archive.events|] == st.archive.events;
    }
    if FragmentOf(line).Some? && AgentBounded(st.agent) {
      AppendTextBounded(st.agent, FragmentOf(line).value);
    }
  }

  /** The whole stdout drain: `Step` over the lines in order. */
  function Drain(st: Aggregation, lines: seq<Line>): (r: Aggregation)
    ensures st.sessionId != "" ==> r.sessionId == st.sessionId
    ensures r.success ==> st.success
    ensures st.agent.truncated ==> r.agent == st.agent
    ensures AgentBounded(st.agent) ==> AgentBounded(r.agent)
    ensures st.archive.truncated ==> r.archive.truncated
    ensures ArchiveConsistent(st.archive) ==> ArchiveConsistent(r.archive)
    ensures ErrorMeansFailure(st) ==> ErrorMeansFailure(r)
    decreases |lines|
  {
    if |lines| == 0 then st
    else
      StepKeeps(st, lines[0]);
      Drain(Step(st, lines[0]), lines[1..])
  }

  /** The archive only grows at its end: what was kept stays kept. */
  lemma {:induction false} DrainArchiveGrows(st: Aggregation, lines: seq<Line>)
    ensures var r := Drain(st, lines);
      |st.archive.events| <= |r.archive.events| && r.archive.events[..|st.archive.events|] == st.archive.events
    decreases |lines|
  {
    if |lines| > 0 {
      var next := Step(st, lines[0]);
      StepKeeps(st, lines[0]);
      DrainArchiveGrows(next, lines[1..]);
      var r := Drain(next, lines[1..]);
      assert r.archive.events[..|st.archive.events|] == r.archive.events[..|next.archive.events|][..|st.archive.events|];
    }
  }

  /** Draining two pieces one after the other is draining them joined. */
  lemma {:induction false} DrainConcat(st: Aggregation, a: seq<Line>, b: seq<Line>)
    ensures Drain(st, a + b) == Drain(Drain(st, a), b)
    decreases |a|
  {
    if |a| == 0 {
      assert a + b == b;
    } else {
      assert (a + b)[0] == a[0];
      assert (a + b)[1..] == a[1..] + b;
      DrainConcat(Step(st, a[0]), a[1..], b);
    }
  }

  /** A blank or malformed line changes nothing: the drain of the stream with
      it is the drain of the stream without it. */
  lemma SkippedLineIsInvisible(st: Aggregation, a: seq<Line>, line: Line, b: seq<Line>)
    requires line.Blank? || line.Malformed?
    ensures Drain(st, a + [line] + b) == Drain(st, a + b)
  {
    DrainConcat(st, a + [line], b);
    DrainConcat(st, a, [line]);
    DrainConcat(st, a, b);
    assert Drain(Drain(st, a), [line]) == Drain(st, a);
  }

  // ------------------------------------------------- session id, as a whole

  /** The session id is the first non-empty one on the stream, or "" when the
      stream never names one; an earlier recorded id is never replaced. */
  lemma {:induction false} DrainSessionId(st: Aggregation, lines: seq<Line>)
    requires st.sessionId == ""
    ensures Drain(st, lines).sessionId == "" <==> forall i :: 0 <= i < |lines| ==> SessionOf(lines[i]) == ""
    ensures forall i :: 0 <= i < |lines| && SessionOf(lines[i]) != ""
              && (forall j :: 0 <= j < i ==> SessionOf(lines[j]) == "")
              ==> Drain(st, lines).sessionId == SessionOf(lines[i])
    decreases |lines|
  {
    if |lines| > 0 {
      var next := Step(st, lines[0]);
      if SessionOf(lines[0]) == "" {
        DrainSessionId(next, lines[1..]);
        assert forall i :: 1 <= i < |lines| ==> lines[i] == lines[1..][i - 1];
      } else {
        assert Drain(st, lines).sessionId == SessionOf(lines[0]);
      }
    }
  }

  // ------------------------------------------------- error state, as a whole

  /** The stream ends failed exactly when it failed before or holds an
      `error` event. */
  lemma {:induction false} DrainSuccess(st: Aggregation, lines: seq<Line>)
    ensures Drain(st, lines).success <==> st.success && forall i :: 0 <= i < |lines| ==> !IsErrorLine(lines[i])
    decreases |lines|
  {
    if |lines| > 0 {
      DrainSuccess(Step(st, lines[0]), lines[1..]);
      assert forall i :: 1 <= i < |lines| ==> lines[i] == lines[1..][i - 1];
    }
  }

  /** The recorded error is the message of the LAST `error` event that has
      one (each overwrites the one before); without such an event it is
      whatever was recorded before the stream. */
  lemma {:induction false} DrainError(st: Aggregation, lines: seq<Line>)
    ensures (forall i :: 0 <= i < |lines| ==> ErrorMessageOf(lines[i]).None?) ==>
              Drain(st, lines).error == st.error
    ensures forall i :: 0 <= i < |lines| && ErrorMessageOf(lines[i]).Some?
              && (forall j :: i < j < |lines| ==> ErrorMessageOf(lines[j]).None?)
              ==> Drain(st, lines).error == Some(ErrorPrefix + ErrorMessageOf(lines[i]).value)
    decreases |lines|
  {
    if |lines| > 0 {
      var next := Step(st, lines[0]);
      DrainError(next, lines[1..]);
      assert forall i :: 1 <= i < |lines| ==> lines[i] == lines[1..][i - 1];
    }
  }

  /** No error is recorded exactly when none was before the stream and no
      `error` event on it carries a message. */
  lemma {:induction false} DrainErrorNone(st: Aggregation, lines: seq<Line>)
    ensures Drain(st, lines).error.None? <==>
              st.error.None? && forall i :: 0 <= i < |lines| ==> ErrorMessageOf(lines[i]).None?
    decreases |lines|
  {
    if |lines| > 0 {
      DrainErrorNone(Step(st, lines[0]), lines[1..]);
      assert forall i :: 1 <= i < |lines| ==> lines[i] == lines[1..][i - 1];
    }
  }

  // ------------------------------------------------- agent text, as a whole

  /** The agent-visible fragments of a stream, in order. */
  function Fragments(lines: seq<Line>): (r: seq<string>)
    ensures |r| <= |lines|
  {
    if |lines| == 0 then []
    else (if FragmentOf(lines[0]).Some? then [FragmentOf(lines[0]).value] else []) + Fragments(lines[1..])
  }

  /** `AppendText` over a sequence of fragments. */
  function TextFold(a: AgentText, fragments: seq<string>): AgentText
    decreases |fragments|
  {
    if |fragments| == 0 then a else TextFold(AppendText(a, fragments[0]), fragments[1..])
  }

  /** The drain's agent text is the text fold over the stream's fragments. */
  lemma {:induction false} DrainAgent(st: Aggregation, lines: seq<Line>)
    ensures Drain(st, lines).agent == TextFold(st.agent, Fragments(lines))
    decreases |lines|
  {
    if |lines| > 0 {
      var next := Step(st, lines[0]);
      assert Drain(st, lines) == Drain(next, lines[1..]);
      DrainAgent(next, lines[1..]);
      var rest := Fragments(lines[1..]);
      var f := FragmentOf(lines[0]);
      if f.Some? {
        assert Fragments(lines) == [f.value] + rest;
        assert ([f.value] + rest)[1..] == rest;
        assert TextFold(st.agent, [f.value] + rest) == TextFold(next.agent, rest);
      } else {
        assert Fragments(lines) == [] + rest == rest;
      }
    }
  }

  /** The fragments joined under the separator rule, with no cap. */
  function Joined(text: string, fragments: seq<string>): string
    decreases |fragments|
  {
    if |fragments| == 0 then text else Joined(Join(text, fragments[0]), fragments[1..])
  }

  /** Fragment `k` is the first one that would not fit after the ones
      before it had been joined on. */
  predicate OverflowsAt(text: string, fragments: seq<string>, k: nat)
    requires k < |fragments|
  {
    Utf8Len(Joined(text, fragments[..k])) + Utf8Len(fragments[k]) > MaxAgentMessagesSize
  }

  lemma JoinedPrefixShift(text: string, fragments: seq<string>, k: nat)
    requires 0 < k <= |fragments|
    ensures Joined(text, fragments[..k]) == Joined(Join(text, fragments[0]), fragments[1..][..k - 1])
  {
    assert fragments[..k][0] == fragments[0];
    assert fragments[..k][1..] == fragments[1..][..k - 1];
  }

  /** Fragments that fit after `text` still fit, one position earlier,
      after `text` with the first fragment joined on. */
  lemma NoOverflowShift(text: string, fragments: seq<string>, k: nat)
    requires 0 < k <= |fragments|
    requires forall j: nat :: j < k ==> !OverflowsAt(text, fragments, j)
    ensures forall j: nat :: j < k - 1 ==> !OverflowsAt(Join(text, fragments[0]), fragments[1..], j)
  {
    forall j: nat | j < k - 1 ensures !OverflowsAt(Join(text, fragments[0]), fragments[1..], j) {
      JoinedPrefixShift(text, fragments, j + 1);
      assert !OverflowsAt(text, fragments, j + 1);
    }
  }

  lemma OverflowShift(text: string, fragments: seq<string>, k: nat)
    requires 0 < k < |fragments| && OverflowsAt(text, fragments, k)
    ensures OverflowsAt(Join(text, fragments[0]), fragments[1..], k - 1)
  {
    JoinedPrefixShift(text, fragments, k);
    assert fragments[1..][k - 1] == fragments[k];
  }

  /** Once cut off, the text ignores every later fragment. */
  lemma {:induction false} TextFoldFrozen(a: AgentText, fragments: seq<string>)
    requires a.truncated
    ensures TextFold(a, fragments) == a
    decreases |fragments|
  {
    if |fragments| > 0 {
      TextFoldFrozen(AppendText(a, fragments[0]), fragments[1..]);
    }
  }

  /** When no fragment overflows, the text is all fragments joined and the
      flag stays clear. */
  lemma {:induction false} TextFoldFits(text: string, fragments: seq<string>)
    requires forall k: nat :: k < |fragments| ==> !OverflowsAt(text, fragments, k)
    ensures TextFold(AgentText(text, false), fragments) == AgentText(Joined(text, fragments), false)
    decreases |fragments|
  {
    if |fragments| > 0 {
      assert !OverflowsAt(text, fragments, 0);
      assert fragments[..0] == [];
      var text' := Join(text, fragments[0]);
      NoOverflowShift(text, fragments, |fragments|);
      TextFoldFits(text', fragments[1..]);
    }
  }

  /** When fragment `k` is the first to overflow, the text is exactly the
      fragments before it joined, then the marker, and the flag is set. */
  lemma {:induction false} TextFoldOverflow(text: string, fragments: seq<string>, k: nat)
    requires k < |fragments| && OverflowsAt(text, fragments, k)
    requires forall j: nat :: j < k ==> !OverflowsAt(text, fragments, j)
    ensures TextFold(AgentText(text, false), fragments)
              == AgentText(Joined(text, fragments[..k]) + TruncationMarker, true)
    decreases |fragments|
  {
    assert fragments[..0] == [];
    var a := AppendText(AgentText(text, false), fragments[0]);
    assert TextFold(AgentText(text, false), fragments) == TextFold(a, fragments[1..]);
    if k == 0 {
      assert Joined(text, fragments[..0]) == text;
      assert a == AgentText(text + TruncationMarker, true);
      TextFoldFrozen(a, fragments[1..]);
    } else {
      assert !OverflowsAt(text, fragments, 0);
      var text' := Join(text, fragments[0]);
      assert a == AgentText(text', false);
      NoOverflowShift(text, fragments, k);
      OverflowShift(text, fragments, k);
      JoinedPrefixShift(text, fragments, k);
      TextFoldOverflow(text', fragments[1..], k - 1);
    }
  }

  /** The text ends up empty exactly when it started empty and every
      fragment was empty: a non-empty fragment always leaves a trace, either
      itself or the truncation marker. */
  lemma {:induction false} TextFoldEmpty(a: AgentText, fragments: seq<string>)
    requires a.truncated ==> a.text != ""
    ensures TextFold(a, fragments).text == "" <==>
              a.text == "" && forall i :: 0 <= i < |fragments| ==> fragments[i] == ""
    decreases |fragments|
  {
    if |fragments| > 0 {
      var next := AppendText(a, fragments[0]);
      if !a.truncated && Utf8Len(a.text) + Utf8Len(fragments[0]) > MaxAgentMessagesSize {
        Utf8LenAtLeastLength(a.text);
        Utf8LenAtLeastLength(fragments[0]);
      }
      TextFoldEmpty(next, fragments[1..]);
      assert forall i :: 1 <= i < |fragments| ==> fragments[i] == fragments[1..][i - 1];
    }
  }

  // ---------------------------------------------------- archive, as a whole

  /** The parsed events of a stream, in order. */
  function Events(lines: seq<Line>): (r: seq<Event>)
    ensures |r| <= |lines|
  {
    if |lines| == 0 then []
    else (if lines[0].Parsed? then [lines[0].event] else []) + Events(lines[1..])
  }

  /** The JSON objects among `events`: what an uncapped archive would keep. */
  function Objects(events: seq<Event>): seq<Event> {
    if |events| == 0 then []
    else (if events[0].archiveSize.Some? then [events[0]] else []) + Objects(events[1..])
  }

  /** `ArchivePush` over a sequence of events. */
  function ArchiveFold(ar: Archive, events: seq<Event>): Archive
    decreases |events|
  {
    if |events| == 0 then ar else ArchiveFold(ArchivePush(ar, events[0]), events[1..])
  }

  /** The drain's archive is the archive fold over the stream's events. */
  lemma {:induction false} DrainArchive(st: Aggregation, lines: seq<Line>)
    ensures Drain(st, lines).archive == ArchiveFold(st.archive, Events(lines))
    decreases |lines|
  {
    if |lines| > 0 {
      var next := Step(st, lines[0]);
      assert Drain(st, lines) == Drain(next, lines[1..]);
      DrainArchive(next, lines[1..]);
      var rest := Events(lines[1..]);
      if lines[0].Parsed? {
        var ev := lines[0].event;
        assert Events(lines) == [ev] + rest;
        assert ([ev] + rest)[1..] == rest;
        assert ArchiveFold(st.archive, [ev] + rest) == ArchiveFold(next.archive, rest);
      } else {
        assert Events(lines) == [] + rest == rest;
      }
    }
  }

  /** The archive is turned away from exactly when the objects offered no
      longer fit in what was left; if nothing is turned away it keeps every
      object, in order. */
  lemma {:induction false} ArchiveFoldCap(ar: Archive, events: seq<Event>)
    requires ar.bytes <= MaxAllMessagesSize
    ensures var r := ArchiveFold(ar, events);
      r.truncated <==> ar.truncated || ar.bytes + TotalSize(events) > MaxAllMessagesSize
    ensures var r := ArchiveFold(ar, events);
      !r.truncated ==> r.events == ar.events + Objects(events) && r.bytes == ar.bytes + TotalSize(events)
    decreases |events|
  {
    if |events| == 0 {
      assert ar.events + [] == ar.events;
    } else {
      var ev := events[0];
      var next := ArchivePush(ar, ev);
      ArchiveFoldCap(next, events[1..]);
      if ar.truncated {
      } else if ev.archiveSize.Some? && ar.bytes + ev.archiveSize.value > MaxAllMessagesSize {
        var r := ArchiveFold(ar, events);
        assert r.truncated;
      } else if ev.archiveSize.Some? {
        assert Objects(events) == [ev] + Objects(events[1..]);
        assert ar.events + [ev] + Objects(events[1..]) == ar.events + Objects(events);
      } else {
        assert Objects(events) == Objects(events[1..]);
      }
    }
  }

  /** From an empty archive: it is cut off exactly when the objects of the
      stream add up to more than 50 MiB; otherwise it holds all of them. Its
      running size always equals the size of what it holds and stays within
      the cap. */
  lemma ArchiveOfStream(lines: seq<Line>)
    ensures var ar := Drain(Initial, lines).archive;
      && ArchiveConsistent(ar)
      && (ar.truncated <==> TotalSize(Events(lines)) > MaxAllMessagesSize)
      && (!ar.truncated ==> ar.events == Objects(Events(lines)))
  {
    DrainArchive(Initial, lines);
    ArchiveFoldCap(Initial.archive, Events(lines));
    assert [] + Objects(Events(lines)) == Objects(Events(lines));
  }

  /** The archive is not a prefix of the stream: after one object has been
      turned away, a later smaller one is still kept. */
  lemma ArchiveKeepsLaterSmallerObject()
    ensures var big := Event(None, Untyped, Some(MaxAllMessagesSize - 2));
      var huge := Event(None, Untyped, Some(10));
      var small := Event(None, Untyped, Some(2));
      ArchiveFold(Archive([], 0, false), [big, huge, small])
        == Archive([big, small], MaxAllMessagesSize, true)
  {
    var big := Event(None, Untyped, Some(MaxAllMessagesSize - 2));
    var huge := Event(None, Untyped, Some(10));
    var small := Event(None, Untyped, Some(2));
    var a1 := ArchivePush(Archive([], 0, false), big);
    assert a1 == Archive([big], MaxAllMessagesSize - 2, false);
    var a2 := ArchivePush(a1, huge);
    assert a2 == Archive([big], MaxAllMessagesSize - 2, true);
    var a3 := ArchivePush(a2, small);
    assert a3 == Archive([big, small], MaxAllMessagesSize, true);
    assert [big, huge, small][1..] == [huge, small];
    assert [huge, small][1..] == [small];
    assert [small][1..] == [];
    assert ArchiveFold(a2, [small]) == ArchiveFold(a3, []) == a3;
    assert ArchiveFold(a1, [huge, small]) == ArchiveFold(a2, [small]);
    assert ArchiveFold(Archive([], 0, false), [big, huge, small]) == ArchiveFold(a1, [huge, small]);
  }

  // ----------------------------------------------------------------- stderr

  /** One stderr line (with its newline) offered to the diagnostic buffer:
      kept when the buffer stays within 100 000 bytes, dropped otherwise.
      There is no flag, so a later shorter line may still be kept. */
  function StderrPush(buffer: string, line: string): (r: string)
    ensures r == buffer + line || r == buffer
    ensures r == buffer + line <==> Utf8Len(buffer) + Utf8Len(line) <= MaxStderrSize || line == ""
    ensures Utf8Len(buffer) <= MaxStderrSize ==> Utf8Len(r) <= MaxStderrSize
  {
    Utf8LenConcat(buffer, line);
    Utf8LenAtLeastLength(line);
    assert line == "" ==> buffer + line == buffer;
    if Utf8Len(buffer) + Utf8Len(line) <= MaxStderrSize then buffer + line else buffer
  }

  /** The stderr drain: `lines` appended to `buffer` while they fit. */
  function StderrDrain(buffer: string, lines: seq<string>): (r: string)
    ensures Utf8Len(buffer) <= MaxStderrSize ==> Utf8Len(r) <= MaxStderrSize
    decreases |lines|
  {
    if |lines| == 0 then buffer
    else StderrDrain(StderrPush(buffer, lines[0]), lines[1..])
  }

  /** The buffer only grows at its end: what was captured stays. */
  lemma {:induction false} StderrDrainExtends(buffer: string, lines: seq<string>)
    ensures var r := StderrDrain(buffer, lines);
      |buffer| <= |r| && r[..|buffer|] == buffer
    decreases |lines|
  {
    if |lines| > 0 {
      var next := StderrPush(buffer, lines[0]);
      StderrDrainExtends(next, lines[1..]);
      var r := StderrDrain(next, lines[1..]);
      assert next[..|buffer|] == buffer;
      assert r[..|next|][..|buffer|] == r[..|buffer|];
    }
  }

  function Concat(lines: seq<string>): string {
    if |lines| == 0 then "" else lines[0] + Concat(lines[1..])
  }

  /** While everything fits, the buffer holds every line, in order. */
  lemma {:induction false} StderrKeepsAllThatFits(buffer: string, lines: seq<string>)
    requires Utf8Len(buffer) + Utf8Len(Concat(lines)) <= MaxStderrSize
    ensures StderrDrain(buffer, lines) == buffer + Concat(lines)
    decreases |lines|
  {
    if |lines| == 0 {
      assert buffer + "" == buffer;
    } else {
      StderrFirstFits(buffer, lines);
      StderrKeepsAllThatFits(buffer + lines[0], lines[1..]);
    }
  }

  /** The first line of a stream that fits whole is kept whole. */
  lemma StderrFirstFits(buffer: string, lines: seq<string>)
    requires |lines| > 0
    requires Utf8Len(buffer) + Utf8Len(Concat(lines)) <= MaxStderrSize
    ensures buffer + Concat(lines) == (buffer + lines[0]) + Concat(lines[1..])
    ensures Utf8Len(buffer + lines[0]) + Utf8Len(Concat(lines[1..])) <= MaxStderrSize
    ensures StderrDrain(buffer, lines) == StderrDrain(buffer + lines[0], lines[1..])
  {
    var rest := Concat(lines[1..]);
    assert Concat(lines) == lines[0] + rest;
    Utf8LenConcat(lines[0], rest);
    Utf8LenConcat(buffer, lines[0]);
    assert StderrPush(buffer, lines[0]) == buffer + lines[0];
  }
}

=== FILE: supervisor.dfy ===
/** The orchestration in `src/droid.rs`: `run`, which fills in the defaults,
    reads the context file, clamps the timeout, applies the high-autonomy
    gate and races the agent against the clock; and `run_internal`, which
    launches the agent and turns what it printed into the tool's result.
    The environment, the child process and the clock are parameters. */
module Supervisor {
  import opened Common
  import opened Config
  import opened DroidMd
  import opened Launch
  import opened Stream
  import opened Verdict

  /** What the process environment and the configuration documents supply. */
  datatype Environment = Environment(
    config: ServerConfig,          // the execution defaults in force
    models: seq<CustomModel>,      // the custom model registry
    droidBinVar: Option<string>,   // the DROID_BIN variable, when set
    windows: bool)                 // the platform the server was built for

  // ------------------------------------------------------------ the binary

  /** `resolve_droid_bin`: DROID_BIN trimmed when it holds anything but
      whitespace, otherwise the platform's default name. */
  function ResolveDroidBin(variable: Option<string>, windows: bool): (r: string)
    ensures r != "" && Trim(r) == r
    ensures variable.Some? && !IsBlank(variable.value) ==> r == Trim(variable.value)
    ensures variable.None? || IsBlank(variable.value) ==> r == DefaultDroidBin(windows)
  {
    match variable
    case Some(v) =>
      TrimEmptyIffBlank(v);
      if Trim(v) != "" then
        TrimIdempotent(v);
        Trim(v)
      else DefaultDroidBin(windows)
    case None => DefaultDroidBin(windows)
  }

  /** The name the agent is found under on the search path. */
  function DefaultDroidBin(windows: bool): (r: string)
    ensures r != "" && Trim(r) == r
  {
    var name := if windows then "droid.exe" else "droid";
    assert IsCleanArg(name);
    CleanArgIffTrimmed(name);
    name
  }

  // ------------------------------------------------------------ the timeout

  /** The timeout actually applied: the requested one (the configured
      default when none was requested), but never more than the configured
      maximum (3600 when none is configured). */
  function EffectiveTimeout(requested: Option<nat>, cfg: ServerConfig): (t: nat)
    ensures t <= cfg.maxTimeoutSecs.GetOr(MaxTimeoutSecs)
    ensures t <= requested.GetOr(DefaultTimeout(cfg.timeoutSecs))
    ensures t == cfg.maxTimeoutSecs.GetOr(MaxTimeoutSecs) || t == requested.GetOr(DefaultTimeout(cfg.timeoutSecs))
  {
    var wanted := requested.GetOr(DefaultTimeout(cfg.timeoutSecs));
    var max := cfg.maxTimeoutSecs.GetOr(MaxTimeoutSecs);
    if wanted <= max then wanted else max
  }

  /** Without a configured maximum the timeout stays within an hour, and a
      run that asks for none gets the configured default, which is at
      least one second. */
  lemma TimeoutWithinBuiltinLimits(requested: Option<nat>, cfg: ServerConfig)
    requires cfg.maxTimeoutSecs.None?
    ensures EffectiveTimeout(requested, cfg) <= MaxTimeoutSecs
    ensures requested.None? ==> EffectiveTimeout(requested, cfg) == DefaultTimeout(cfg.timeoutSecs) >= 1
    ensures requested.Some? && requested.value <= MaxTimeoutSecs ==> EffectiveTimeout(requested, cfg) == requested.value
  {
  }

  /** A configured maximum is used as it is, so it can raise the ceiling
      above an hour. */
  lemma ConfiguredMaximumCanExceedAnHour()
    ensures EffectiveTimeout(Some(5000), ServerConfig([], None, None, Some(7200), true)) == 5000
  {
  }

  // ------------------------------------------------------------ the gate

  /** The gate's refusal (in two pieces so that its first word is a short
      literal the verifier reads directly). */
  const HighAutonomyDisabled :=
    "High autonomy level" + " is disabled in configuration. Set allow_high_autonomy=true to enable."

  /** The configuration forbids the autonomy level the run would use. */
  predicate HighAutonomyBlocked(auto: Option<string>, cfg: ServerConfig) {
    auto == Some("high") && !cfg.allowHighAutonomy
  }

  // ------------------------------------------------------------ timing out

  function TimedOutWarning(secs: nat): string {
    "Droid execution timed out after " + NatToString(secs) + " seconds"
  }

  function TimeoutError(secs: nat): string {
    "Timeout after " + NatToString(secs) + " seconds"
  }

  /** The result when the clock wins the race: a failure with nothing
      collected, whose warnings are the ones a finished run would have
      reported followed by the timeout notice. */
  function TimeoutResult(secs: nat, droidWarning: Option<string>, report: ModelReport): (r: DroidResult)
    ensures !r.success && r.error == Some(TimeoutError(secs))
    ensures r.sessionId == "" && r.agentMessages == "" && !r.agentMessagesTruncated
    ensures r.allMessages == [] && !r.allMessagesTruncated
    ensures r.modelInfo == report.display
    ensures r.warnings == AppendLine(AppendLine(droidWarning, report.warning), Some(TimedOutWarning(secs)))
    ensures var w := r.warnings.value; var tw := TimedOutWarning(secs);
      r.warnings.Some? && |tw| <= |w| && w[|w| - |tw|..] == tw
  {
    var tw := TimedOutWarning(secs);
    var combined := match (droidWarning, report.warning)
      case (Some(dw), Some(mw)) => dw + "\n" + mw + "\n" + tw
      case (Some(dw), None) => dw + "\n" + tw
      case (None, Some(mw)) => mw + "\n" + tw
      case (None, None) => tw;
    assert combined[|combined| - |tw|..] == tw;
    DroidResult(false, "", "", false, [], false, Some(TimeoutError(secs)), Some(combined), report.display)
  }

  // ------------------------------------------------------------ the child

  /** The agent process as `run_internal` experiences it.  `stdout` holds
      the lines read before the end of the stream or the first read error;
      `stderr` the raw lines, each with its line terminator, read the same
      way; `stderrJoined` is false when the background collector of them failed;
      `status` is `None` when waiting for the child failed. */
  datatype Child =
    | SpawnFailed
    | NoStdout
    | NoStderr
    | Ran(stdout: seq<Line>, stderr: seq<string>, stderrJoined: bool, status: Option<ExitStatus>)

  /** The program and arguments the agent is started with.  No start
      directory is set on the command: the child inherits the server's own,
      and the working directory reaches it only as `--cwd <dir>` among the
      arguments. */
  datatype Invocation = Invocation(program: string, args: seq<string>)

  /** One launch: what was started, and what came of it. */
  datatype Attempt = Attempt(invocation: Invocation, outcome: Result<DroidResult, string>)

  /** The spawn failure names the working directory, though the child is
      not started in it. */
  function SpawnError(program: string, dir: string): string {
    "Failed to spawn droid command '" + program + "' in '" + dir + "'"
  }

  const NoStdoutError := "Failed to get stdout from droid command"
  const NoStderrError := "Failed to get stderr from droid command"
  const WaitError := "Failed to wait for droid command"

  /** The stderr text the verdict may quote: what the collector kept, or
      nothing when it could not be joined. */
  function CapturedStderr(child: Child): (e: string)
    requires child.Ran?
    ensures Utf8.Utf8Len(e) <= MaxStderrSize
    ensures child.stderrJoined ==> e == StderrDrain("", child.stderr)
    ensures !child.stderrJoined ==> e == ""
  {
    if child.stderrJoined then StderrDrain("", child.stderr) else ""
  }

  /** `run_internal`: start the agent with the command line built from the
      options, drain its output and decide the result.  The model's warning
      is added to the context file's, and every failure before the child
      has been waited for is an error instead of a result. */
  function RunInternal(opts: Options, env: Environment, prompt: string,
                       droidWarning: Option<string>, child: Child): (a: Attempt)
    ensures a.invocation == Invocation(ResolveDroidBin(env.droidBinVar, env.windows), Argv(opts, prompt))
    ensures a.outcome.Ok? <==> child.Ran? && child.status.Some?
    ensures child.SpawnFailed? ==> a.outcome == Err(SpawnError(a.invocation.program, opts.workingDir))
    ensures child.NoStdout? ==> a.outcome == Err(NoStdoutError)
    ensures child.NoStderr? ==> a.outcome == Err(NoStderrError)
    ensures child.Ran? && child.status.None? ==> a.outcome == Err(WaitError)
    ensures a.outcome.Ok? ==>
      var r := a.outcome.value;
      var report := GetModelInfo(opts.model, env.models);
      && r.warnings == AppendLine(droidWarning, report.warning)
      && r.modelInfo == report.display
      && r.modelInfo.Some?
      && AgentBounded(AgentText(r.agentMessages, r.agentMessagesTruncated))
      && (r.success ==> r.error.None? && r.sessionId != "" && r.agentMessages != "")
  {
    var program := ResolveDroidBin(env.droidBinVar, env.windows);
    var invocation := Invocation(program, Argv(opts, prompt));
    var report := GetModelInfo(opts.model, env.models);
    var warnings := AppendLine(droidWarning, report.warning);
    var outcome := match child
      case SpawnFailed => Err(SpawnError(program, opts.workingDir))
      case NoStdout => Err(NoStdoutError)
      case NoStderr => Err(NoStderrError)
      case Ran(stdout, _, _, status) =>
        match status
        case None => Err(WaitError)
        case Some(s) =>
          var agg := Drain(Initial, stdout);
          Ok(Resolve(agg, s, CapturedStderr(child), warnings, report.display));
    Attempt(invocation, outcome)
  }

  // ------------------------------------------------------------ the run

  /** The race between the agent and the clock: the agent finished (or
      failed to start) first, or the timeout elapsed first. */
  datatype Race = Finished(child: Child) | Elapsed

  /** What `run` settles before racing: the options with their defaults,
      the prompt with the context file, the file's warning, the timeout. */
  datatype Plan = Plan(opts: Options, prompt: string, droidWarning: Option<string>, timeoutSecs: nat)

  function Prepare(opts: Options, env: Environment, file: DroidMdFile): (p: Plan)
    ensures p.opts.model == (if opts.model.Some? then opts.model else DefaultModel(env.models))
    ensures p.opts.auto.Some?
    ensures opts.auto.Some? ==> p.opts.auto == opts.auto
    ensures opts.auto.None? ==> p.opts.auto == DefaultAuto(env.config)
    ensures p.opts.timeoutSecs.Some?
    ensures opts.timeoutSecs.Some? ==> p.opts.timeoutSecs == opts.timeoutSecs
    ensures p.opts.(model := opts.model, auto := opts.auto, timeoutSecs := opts.timeoutSecs) == opts
    ensures p.droidWarning == ReadDroidMd(file).warning
    ensures p.prompt == ComposePrompt(ReadDroidMd(file).content, opts.prompt)
    ensures p.timeoutSecs == EffectiveTimeout(opts.timeoutSecs, env.config)
  {
    var model := if opts.model.None? then DefaultModel(env.models) else opts.model;
    var auto := if opts.auto.None? then DefaultAuto(env.config) else opts.auto;
    var context := ReadDroidMd(file);
    var prompt := ComposePrompt(context.content, opts.prompt);
    var requested := if opts.timeoutSecs.None? then Some(DefaultTimeout(env.config.timeoutSecs)) else opts.timeoutSecs;
    var timeout := requested.GetOr(DefaultTimeoutSecs);
    var max := env.config.maxTimeoutSecs.GetOr(MaxTimeoutSecs);
    var timeout := if timeout <= max then timeout else max;
    Plan(opts.(model := model, auto := auto, timeoutSecs := requested), prompt, context.warning, timeout)
  }

  /** `run`: settle the defaults, refuse a forbidden autonomy level, then
      report whichever of the agent and the clock finished first. */
  function Run(opts: Options, env: Environment, file: DroidMdFile, race: Race): (r: Result<DroidResult, string>)
    ensures var p := Prepare(opts, env, file);
      HighAutonomyBlocked(p.opts.auto, env.config) ==> r == Err(HighAutonomyDisabled)
    ensures var p := Prepare(opts, env, file);
      !HighAutonomyBlocked(p.opts.auto, env.config) && race.Elapsed? ==>
        r == Ok(TimeoutResult(p.timeoutSecs, p.droidWarning, GetModelInfo(p.opts.model, env.models)))
    ensures var p := Prepare(opts, env, file);
      !HighAutonomyBlocked(p.opts.auto, env.config) && race.Finished? ==>
        r == RunInternal(p.opts, env, p.prompt, p.droidWarning, race.child).outcome
  {
    var p := Prepare(opts, env, file);
    if p.opts.auto.Some? && p.opts.auto.value == "high" && !env.config.allowHighAutonomy then
      Err(HighAutonomyDisabled)
    else
      match race
      case Elapsed => Ok(TimeoutResult(p.timeoutSecs, p.droidWarning, GetModelInfo(p.opts.model, env.models)))
      case Finished(child) => RunInternal(p.opts, env, p.prompt, p.droidWarning, child).outcome
  }

  /** The launch failures never read as the gate's refusal. */
  lemma LaunchErrorsAreNotTheGate(program: string, dir: string)
    ensures SpawnError(program, dir) != HighAutonomyDisabled
    ensures NoStdoutError != HighAutonomyDisabled
    ensures NoStderrError != HighAutonomyDisabled
    ensures WaitError != HighAutonomyDisabled
  {
    assert SpawnError(program, dir)[0] == 'F' != 'H' == HighAutonomyDisabled[0];
  }

  /** The gate is exact: `run` refuses with the configuration message
      precisely when the autonomy level in force is "high" and the
      configuration does not allow it. */
  lemma GateIsExact(opts: Options, env: Environment, file: DroidMdFile, race: Race)
    ensures var p := Prepare(opts, env, file);
      Run(opts, env, file, race) == Err(HighAutonomyDisabled) <==> HighAutonomyBlocked(p.opts.auto, env.config)
  {
    var p := Prepare(opts, env, file);
    if race.Finished? {
      LaunchErrorsAreNotTheGate(ResolveDroidBin(env.droidBinVar, env.windows), p.opts.workingDir);
    }
  }

  /** Skipping permissions does not escape the gate: with no level in the
      request and none configured, the run is refused when high autonomy
      is disabled, although the level it refuses would not have been put
      on the command line (the unsafe switch replaces it there). */
  lemma SkipPermissionsStillGated(opts: Options, env: Environment, file: DroidMdFile, race: Race)
    requires opts.skipPermissionsUnsafe && opts.auto.None?
    requires env.config.defaultAuto.None? && !env.config.allowHighAutonomy
    requires var p := Prepare(opts, env, file); PlainWordsAreNotFlags(p.opts, p.prompt)
    ensures Run(opts, env, file, race) == Err(HighAutonomyDisabled)
    ensures var p := Prepare(opts, env, file);
      Carries(ReadBack(Argv(p.opts, p.prompt)), Auto, None)
  {
    var p := Prepare(opts, env, file);
    ArgvReadBack(p.opts, p.prompt);
  }

  /** When the clock wins, the run fails with the timeout error after no
      more than the configured maximum, and its warnings end with the
      timeout notice. */
  lemma TimedOutRun(opts: Options, env: Environment, file: DroidMdFile)
    requires !HighAutonomyBlocked(Prepare(opts, env, file).opts.auto, env.config)
    ensures var r := Run(opts, env, file, Elapsed);
      var t := Prepare(opts, env, file).timeoutSecs;
      && r.Ok? && !r.value.success && r.value.error == Some(TimeoutError(t))
      && t <= env.config.maxTimeoutSecs.GetOr(MaxTimeoutSecs)
      && r.value.sessionId == "" && r.value.allMessages == []
      && r.value.warnings.Some?
      && var w := r.value.warnings.value; var tw := TimedOutWarning(t);
         |tw| <= |w| && w[|w| - |tw|..] == tw
  {
  }

  /** A child that was waited for gives a result, which is a success
      exactly when its output and exit allow one. */
  lemma RunInternalSuccess(opts: Options, env: Environment, prompt: string, droidWarning: Option<string>,
                           stdout: seq<Line>, stderr: seq<string>, joined: bool, status: ExitStatus)
    ensures var r := RunInternal(opts, env, prompt, droidWarning, Ran(stdout, stderr, joined, Some(status))).outcome;
      r.Ok? && (r.value.success <==> StreamSucceeds(stdout, status))
  {
    var child := Ran(stdout, stderr, joined, Some(status));
    var report := GetModelInfo(opts.model, env.models);
    var o := Outcome(stdout, status, CapturedStderr(child), AppendLine(droidWarning, report.warning), report.display);
    RunInternalOutcome(opts, env, prompt, droidWarning, stdout, stderr, joined, status);
    assert RunInternal(opts, env, prompt, droidWarning, child).outcome == Ok(o);
    OutcomeSuccess(stdout, status, CapturedStderr(child), AppendLine(droidWarning, report.warning), report.display);
  }

  /** A run the clock did not cut short, whose child was waited for,
      succeeds exactly when the stream has no `error` event, the child
      exits with 0, some event names a session and some agent text is
      non-empty. */
  lemma FinishedRunSuccess(opts: Options, env: Environment, file: DroidMdFile,
                           stdout: seq<Line>, stderr: seq<string>, joined: bool, status: ExitStatus)
    requires !HighAutonomyBlocked(Prepare(opts, env, file).opts.auto, env.config)
    ensures var r := Run(opts, env, file, Finished(Ran(stdout, stderr, joined, Some(status))));
      r.Ok? && (r.value.success <==> StreamSucceeds(stdout, status))
  {
    var p := Prepare(opts, env, file);
    var child := Ran(stdout, stderr, joined, Some(status));
    RunInternalSuccess(p.opts, env, p.prompt, p.droidWarning, stdout, stderr, joined, status);
    var o := RunInternal(p.opts, env, p.prompt, p.droidWarning, child).outcome;
    assert Run(opts, env, file, Finished(child)) == o;
  }

  /** A child that was waited for yields the verdict on its output. */
  lemma RunInternalOutcome(opts: Options, env: Environment, prompt: string, droidWarning: Option<string>,
                           stdout: seq<Line>, stderr: seq<string>, joined: bool, status: ExitStatus)
    ensures var child := Ran(stdout, stderr, joined, Some(status));
      var report := GetModelInfo(opts.model, env.models);
      RunInternal(opts, env, prompt, droidWarning, child).outcome
        == Ok(Outcome(stdout, status, CapturedStderr(child), AppendLine(droidWarning, report.warning), report.display))
  {
  }

  /** A failed exit of a clean stream that named a session is reported with
      the exit status and at most 100000 bytes of the child's stderr. */
  lemma ExitFailureQuotesBoundedStderr(opts: Options, env: Environment, prompt: string,
                                       droidWarning: Option<string>, child: Child)
    requires child.Ran? && child.status.Some? && !Succeeded(child.status.value)
    requires forall i :: 0 <= i < |child.stdout| ==> !IsErrorLine(child.stdout[i])
    requires exists i :: 0 <= i < |child.stdout| && SessionOf(child.stdout[i]) != ""
    ensures var r := RunInternal(opts, env, prompt, droidWarning, child).outcome;
      var e := CapturedStderr(child);
      && r.Ok? && !r.value.success
      && r.value.error == Some(ExitError(child.status.value, e))
      && Utf8.Utf8Len(e) <= MaxStderrSize
  {
    DrainError(Initial, child.stdout);
    DrainSessionId(Initial, child.stdout);
  }

  /** A request that names no model runs with the default one, which always
      resolves: with a registry, only the context file can contribute a
      warning. */
  lemma DefaultModelAddsNoWarning(opts: Options, env: Environment, file: DroidMdFile, child: Child)
    requires opts.model.None? && |env.models| > 0
    requires !HighAutonomyBlocked(Prepare(opts, env, file).opts.auto, env.config)
    ensures var r := Run(opts, env, file, Finished(child));
      r.Ok? ==> r.value.warnings == ReadDroidMd(file).warning
  {
    DefaultModelResolves(env.models);
  }
}

=== FILE: utf8.dfy ===
/** UTF-8 as Rust uses it: `String::len` counts encoded bytes, and
    `std::str::from_utf8` accepts exactly the well-formed byte sequences of
    Table 3-7 of the Unicode Standard (no overlong forms, no surrogates,
    nothing above U+10FFFF). */
module Utf8 {

  newtype byte = b: int | 0 <= b < 0x100

  /** Number of bytes UTF-8 uses for one scalar value. */
  function Width(c: char): (n: nat)
    ensures 1 <= n <= 4
  {
    var v := c as int;
    if v < 0x80 then 1 else if v < 0x800 then 2 else if v < 0x10000 then 3 else 4
  }

  /** The byte length Rust's `str::len` reports. */
  function Utf8Len(s: string): nat {
    if |s| == 0 then 0 else Width(s[0]) + Utf8Len(s[1..])
  }

  lemma {:induction false} Utf8LenConcat(a: string, b: string)
    ensures Utf8Len(a + b) == Utf8Len(a) + Utf8Len(b)
    decreases |a|
  {
    if |a| > 0 {
      assert (a + b)[0] == a[0];
      assert (a + b)[1..] == a[1..] + b;
      Utf8LenConcat(a[1..], b);
    } else {
      assert a + b == b;
    }
  }

  /** Every character takes at least one byte. */
  lemma {:induction false} Utf8LenAtLeastLength(s: string)
    ensures |s| <= Utf8Len(s)
    ensures Utf8Len(s) == 0 <==> s == ""
  {
    if |s| > 0 {
      Utf8LenAtLeastLength(s[1..]);
    }
  }

  /** Strings of ASCII characters have one byte per character. */
  lemma {:induction false} Utf8LenAscii(s: string)
    requires forall i :: 0 <= i < |s| ==> s[i] as int < 0x80
    ensures Utf8Len(s) == |s|
  {
    if |s| > 0 {
      Utf8LenAscii(s[1..]);
    }
  }

  predicate IsContinuation(b: byte) {
    0x80 <= b <= 0xBF
  }

  /** Length of the well-formed byte sequence at the head of `b` (Table 3-7),
      or 0 when the head is ill-formed or cut short. */
  function HeadLength(b: seq<byte>): (n: nat)
    ensures n <= |b| && n <= 4
    ensures |b| > 0 && b[0] < 0x80 ==> n == 1
  {
    if |b| == 0 then 0
    else if b[0] < 0x80 then 1
    else if 0xC2 <= b[0] <= 0xDF then
      if |b| >= 2 && IsContinuation(b[1]) then 2 else 0
    else if b[0] == 0xE0 then
      if |b| >= 3 && 0xA0 <= b[1] <= 0xBF && IsContinuation(b[2]) then 3 else 0
    else if 0xE1 <= b[0] <= 0xEC || 0xEE <= b[0] <= 0xEF then
      if |b| >= 3 && IsContinuation(b[1]) && IsContinuation(b[2]) then 3 else 0
    else if b[0] == 0xED then
      if |b| >= 3 && 0x80 <= b[1] <= 0x9F && IsContinuation(b[2]) then 3 else 0
    else if b[0] == 0xF0 then
      if |b| >= 4 && 0x90 <= b[1] <= 0xBF && IsContinuation(b[2]) && IsContinuation(b[3]) then 4 else 0
    else if 0xF1 <= b[0] <= 0xF3 then
      if |b| >= 4 && IsContinuation(b[1]) && IsContinuation(b[2]) && IsContinuation(b[3]) then 4 else 0
    else if b[0] == 0xF4 then
      if |b| >= 4 && 0x80 <= b[1] <= 0x8F && IsContinuation(b[2]) && IsContinuation(b[3]) then 4 else 0
    else 0
  }

  /** `std::str::from_utf8(b).is_ok()`. */
  predicate ValidUtf8(b: seq<byte>)
    decreases |b|
  {
    |b| == 0 || (HeadLength(b) > 0 && ValidUtf8(b[HeadLength(b)..]))
  }

  /** The head length depends only on the bytes it covers. */
  lemma HeadLengthPrefix(b: seq<byte>, m: nat)
    requires 0 < HeadLength(b) <= m <= |b|
    ensures HeadLength(b[..m]) == HeadLength(b)
  {
  }

  /** A well-formed head stays the head when bytes are appended. */
  lemma HeadLengthExtend(b: seq<byte>, rest: seq<byte>)
    requires HeadLength(b) > 0
    ensures HeadLength(b + rest) == HeadLength(b)
  {
    var n := HeadLength(b);
    assert forall i :: 0 <= i < n ==> (b + rest)[i] == b[i];
  }

  function EncodeChar(c: char): (r: seq<byte>)
    ensures |r| == Width(c)
  {
    var v := c as int;
    if v < 0x80 then [v as byte]
    else if v < 0x800 then [(0xC0 + v / 0x40) as byte, (0x80 + v % 0x40) as byte]
    else if v < 0x10000 then
      [(0xE0 + v / 0x1000) as byte, (0x80 + (v / 0x40) % 0x40) as byte, (0x80 + v % 0x40) as byte]
    else
      [(0xF0 + v / 0x40000) as byte, (0x80 + (v / 0x1000) % 0x40) as byte,
       (0x80 + (v / 0x40) % 0x40) as byte, (0x80 + v % 0x40) as byte]
  }

  /** The UTF-8 encoding of a string. */
  function Encode(s: string): (r: seq<byte>)
    ensures |r| == Utf8Len(s)
  {
    if |s| == 0 then [] else EncodeChar(s[0]) + Encode(s[1..])
  }

  /** The scalar value spelled by the well-formed head of `b`. */
  function HeadValue(b: seq<byte>): (v: int)
    requires HeadLength(b) > 0
    ensures 0 <= v < 0xD800 || 0xE000 <= v < 0x11_0000
  {
    var n := HeadLength(b);
    if n == 1 then b[0] as int
    else if n == 2 then (b[0] as int - 0xC0) * 0x40 + (b[1] as int - 0x80)
    else if n == 3 then
      (b[0] as int - 0xE0) * 0x1000 + (b[1] as int - 0x80) * 0x40 + (b[2] as int - 0x80)
    else
      (b[0] as int - 0xF0) * 0x40000 + (b[1] as int - 0x80) * 0x1000
        + (b[2] as int - 0x80) * 0x40 + (b[3] as int - 0x80)
  }

  function DecodeHead(b: seq<byte>): (c: char)
    requires HeadLength(b) > 0
    ensures Width(c) == HeadLength(b)
  {
    HeadValue(b) as char
  }

  /** `String::from_utf8(b).unwrap()` for well-formed input. */
  function Decode(b: seq<byte>): (s: string)
    requires ValidUtf8(b)
    ensures Utf8Len(s) == |b|
    decreases |b|
  {
    if |b| == 0 then "" else [DecodeHead(b)] + Decode(b[HeadLength(b)..])
  }

  lemma DivMod64(q: int, r: int)
    requires 0 <= r < 0x40
    ensures (q * 0x40 + r) / 0x40 == q && (q * 0x40 + r) % 0x40 == r
  {
  }

  lemma DivMod4096(q: int, r: int)
    requires 0 <= r < 0x1000
    ensures (q * 0x1000 + r) / 0x1000 == q && (q * 0x1000 + r) % 0x1000 == r
  {
  }

  lemma DivMod262144(q: int, r: int)
    requires 0 <= r < 0x40000
    ensures (q * 0x40000 + r) / 0x40000 == q && (q * 0x40000 + r) % 0x40000 == r
  {
  }

  lemma EncodeDecodeHead2(b: seq<byte>)
    requires HeadLength(b) == 2
    ensures EncodeChar(DecodeHead(b)) == b[..2]
  {
    var x0, x1 := b[0] as int - 0xC0, b[1] as int - 0x80;
    assert HeadValue(b) == x0 * 0x40 + x1;
    DivMod64(x0, x1);
  }

  lemma EncodeDecodeHead3(b: seq<byte>)
    requires HeadLength(b) == 3
    ensures EncodeChar(DecodeHead(b)) == b[..3]
  {
    var x0, x1, x2 := b[0] as int - 0xE0, b[1] as int - 0x80, b[2] as int - 0x80;
    var v := HeadValue(b);
    assert v == x0 * 0x1000 + x1 * 0x40 + x2;
    assert v == (x0 * 0x40 + x1) * 0x40 + x2;
    DivMod64(x0 * 0x40 + x1, x2);
    DivMod64(x0, x1);
    DivMod4096(x0, x1 * 0x40 + x2);
  }

  lemma EncodeDecodeHead4(b: seq<byte>)
    requires HeadLength(b) == 4
    ensures EncodeChar(DecodeHead(b)) == b[..4]
  {
    var x0, x1, x2, x3 := b[0] as int - 0xF0, b[1] as int - 0x80, b[2] as int - 0x80, b[3] as int - 0x80;
    var v := HeadValue(b);
    var mid := x0 * 0x40 + x1;
    assert v == x0 * 0x40000 + x1 * 0x1000 + x2 * 0x40 + x3;
    assert v == (mid * 0x40 + x2) * 0x40 + x3;
    DivMod64(mid * 0x40 + x2, x3);
    assert v / 0x40 == mid * 0x40 + x2;
    DivMod64(mid, x2);
    assert v == mid * 0x1000 + (x2 * 0x40 + x3);
    DivMod4096(mid, x2 * 0x40 + x3);
    DivMod64(x0, x1);
    assert v == x0 * 0x40000 + (x1 * 0x1000 + x2 * 0x40 + x3);
    DivMod262144(x0, x1 * 0x1000 + x2 * 0x40 + x3);
  }

  /** Encoding the decoded head gives back exactly the head bytes. */
  lemma EncodeDecodeHead(b: seq<byte>)
    requires HeadLength(b) > 0
    ensures EncodeChar(DecodeHead(b)) == b[..HeadLength(b)]
  {
    var n := HeadLength(b);
    if n == 2 {
      EncodeDecodeHead2(b);
    } else if n == 3 {
      EncodeDecodeHead3(b);
    } else if n == 4 {
      EncodeDecodeHead4(b);
    }
  }

  /** An encoded character is a well-formed head that decodes back to it. */
  lemma DecodeEncodeChar(c: char, rest: seq<byte>)
    ensures HeadLength(EncodeChar(c) + rest) == Width(c)
    ensures DecodeHead(EncodeChar(c) + rest) == c
  {
    var v := c as int;
    var e := EncodeChar(c);
    var b := e + rest;
    assert b[..|e|] == e;
    if v < 0x80 {
    } else if v < 0x800 {
      DecodeEncodeTwo(c, b);
    } else if v < 0x10000 {
      DecodeEncodeThree(c, b);
    } else {
      DecodeEncodeFour(c, b);
    }
  }

  lemma DecodeEncodeTwo(c: char, b: seq<byte>)
    requires 0x80 <= c as int < 0x800
    requires |b| >= 2 && b[..2] == EncodeChar(c)
    ensures HeadLength(b) == 2 && DecodeHead(b) == c
  {
    var v := c as int;
    assert b[0] == b[..2][0] && b[1] == b[..2][1];
    DivMod64(v / 0x40, v % 0x40);
  }

  lemma DecodeEncodeThree(c: char, b: seq<byte>)
    requires 0x800 <= c as int < 0x10000
    requires |b| >= 3 && b[..3] == EncodeChar(c)
    ensures HeadLength(b) == 3 && DecodeHead(b) == c
  {
    var v := c as int;
    assert b[0] == b[..3][0] && b[1] == b[..3][1] && b[2] == b[..3][2];
    var q := v / 0x40;
    assert 0x20 <= q < 0x400;
    assert q / 0x40 == v / 0x1000;
    if v / 0x1000 == 0 {
      assert q % 0x40 >= 0x20;
    } else if v / 0x1000 == 0xD {
      assert v < 0xD800;
      assert q % 0x40 < 0x20;
    }
    assert HeadLength(b) == 3;
    assert HeadValue(b) == (v / 0x1000) * 0x1000 + (q % 0x40) * 0x40 + v % 0x40;
  }

  lemma DecodeEncodeFour(c: char, b: seq<byte>)
    requires 0x10000 <= c as int
    requires |b| >= 4 && b[..4] == EncodeChar(c)
    ensures HeadLength(b) == 4 && DecodeHead(b) == c
  {
    var v := c as int;
    assert b[0] == b[..4][0] && b[1] == b[..4][1] && b[2] == b[..4][2] && b[3] == b[..4][3];
    var q := v / 0x40;
    var p := q / 0x40;
    assert p == v / 0x1000;
    assert p / 0x40 == v / 0x40000;
    assert 0x10 <= p < 0x110;
    if v / 0x40000 == 0 {
      assert p % 0x40 >= 0x10;
    } else if v / 0x40000 == 4 {
      assert p % 0x40 < 0x10;
    }
    assert HeadLength(b) == 4;
    assert HeadValue(b) == (p / 0x40) * 0x40000 + (p % 0x40) * 0x1000 + (q % 0x40) * 0x40 + v % 0x40;
  }

  lemma EncodeCons(c: char, tail: string)
    ensures Encode([c] + tail) == EncodeChar(c) + Encode(tail)
  {
    assert ([c] + tail)[0] == c && ([c] + tail)[1..] == tail;
  }

  /** Decoding then encoding is the identity on well-formed bytes. */
  lemma {:induction false} EncodeDecode(b: seq<byte>)
    requires ValidUtf8(b)
    ensures Encode(Decode(b)) == b
    decreases |b|
  {
    if |b| > 0 {
      var n := HeadLength(b);
      var c := DecodeHead(b);
      var tail := Decode(b[n..]);
      calc {
        Encode(Decode(b));
        Encode([c] + tail);
        { EncodeCons(c, tail); }
        EncodeChar(c) + Encode(tail);
        { EncodeDecodeHead(b); EncodeDecode(b[n..]); }
        b[..n] + b[n..];
        b;
      }
    }
  }

  /** Every string encodes to well-formed bytes that decode back to it. */
  lemma {:induction false} DecodeEncode(s: string)
    ensures ValidUtf8(Encode(s))
    ensures Decode(Encode(s)) == s
  {
    if |s| > 0 {
      var e := Encode(s);
      DecodeEncodeChar(s[0], Encode(s[1..]));
      DecodeEncode(s[1..]);
      assert e[Width(s[0])..] == Encode(s[1..]);
      assert s == [s[0]] + s[1..];
    }
  }

  /** Well-formed bytes: a well-formed head, then well-formed bytes. */
  lemma ValidStep(c: seq<byte>, n: nat)
    requires 0 < n == HeadLength(c) && ValidUtf8(c[n..])
    ensures ValidUtf8(c)
  {
  }

  lemma DropConcat(a: seq<byte>, b: seq<byte>, n: nat)
    requires n <= |a|
    ensures (a + b)[n..] == a[n..] + b
  {
  }

  /** Joining two well-formed byte sequences gives a well-formed one. */
  lemma {:induction false} ValidConcat(a: seq<byte>, b: seq<byte>)
    requires ValidUtf8(a) && ValidUtf8(b)
    ensures ValidUtf8(a + b)
    decreases |a|
  {
    if |a| > 0 {
      var n := HeadLength(a);
      HeadLengthExtend(a, b);
      ValidConcat(a[n..], b);
      DropConcat(a, b, n);
      ValidStep(a + b, n);
    } else {
      assert a + b == b;
    }
  }

  /** In well-formed bytes, a character boundary lies within three bytes
      below any cut point: some prefix ending at most three bytes before `k`
      is itself well-formed. */
  lemma {:induction false} BoundaryNear(b: seq<byte>, k: nat)
    requires ValidUtf8(b) && k <= |b|
    ensures exists e :: 0 <= e <= k && k - 3 <= e && ValidUtf8(b[..e])
    decreases |b|
  {
    if k == 0 {
      assert ValidUtf8(b[..0]);
    } else {
      var n := HeadLength(b);
      if k < n {
        assert ValidUtf8(b[..0]);
      } else {
        BoundaryNear(b[n..], k - n);
        var e' :| 0 <= e' <= k - n && k - n - 3 <= e' && ValidUtf8(b[n..][..e']);
        var p := b[..n + e'];
        HeadLengthPrefix(b, n + e');
        assert p[n..] == b[n..][..e'];
        assert ValidUtf8(p);
      }
    }
  }
}

=== FILE: verdict.dfy ===
/** The verdict at the end of `run_internal` in `src/droid.rs`: once the
    stdout drain is done and the child has exited, the exit status, the
    session id and the agent text decide success and the error message. */
module Verdict {
  import opened Common
  import opened Stream

  /** How the child ended: with an exit code, or (on Unix) by a signal, in
      which case Rust's `ExitStatus::code` is `None`. */
  datatype ExitStatus = Exited(code: int) | Signalled

  /** Rust's `ExitStatus::success`. */
  predicate Succeeded(status: ExitStatus) {
    status.Exited? && status.code == 0
  }

  /** The `{:?}` rendering of `status.code()`. */
  function CodeDebug(status: ExitStatus): (r: string)
    ensures status.Signalled? <==> r == "None"
  {
    match status
    case Exited(c) => "Some(" + IntToString(c) + ")"
    case Signalled => "None"
  }

  const ExitErrorPrefix := "droid exited with code "
  const StderrSeparator := ". stderr: "
  const NoSessionError := "No session_id received from droid"
  const NoAgentMessagesError := "No agent messages received from droid"

  /** The error for a failed exit, quoting the captured stderr when any. */
  function ExitError(status: ExitStatus, stderr: string): (r: string)
    ensures StartsWith(r, ExitErrorPrefix + CodeDebug(status))
    ensures stderr == "" ==> r == ExitErrorPrefix + CodeDebug(status)
    ensures stderr != "" ==> |stderr| <= |r| && r[|r| - |stderr|..] == stderr
    ensures stderr != "" ==> r == ExitErrorPrefix + CodeDebug(status) + StderrSeparator + stderr
  {
    var head := ExitErrorPrefix + CodeDebug(status);
    var r := if stderr != "" then head + StderrSeparator + stderr else head;
    assert r[..|head|] == head;
    r
  }

  /** The tool's result. */
  datatype DroidResult = DroidResult(
    success: bool,
    sessionId: string,
    agentMessages: string,
    agentMessagesTruncated: bool,
    allMessages: seq<Event>,
    allMessagesTruncated: bool,
    error: Option<string>,
    warnings: Option<string>,
    modelInfo: Option<string>)

  /** The three closing rules, in order: a failed exit fails the run and
      supplies an error only if none was recorded; a missing session id
      fails it and replaces the error; an empty agent text fails a run
      that would otherwise succeed. */
  function Resolve(agg: Aggregation, status: ExitStatus, stderr: string,
                   warnings: Option<string>, modelInfo: Option<string>): (r: DroidResult)
    ensures r.success <==> agg.success && Succeeded(status) && agg.sessionId != "" && agg.agent.text != ""
    ensures agg.sessionId == "" ==> r.error == Some(NoSessionError)
    ensures agg.sessionId != "" && agg.success && Succeeded(status) && agg.agent.text == "" ==>
              r.error == Some(NoAgentMessagesError)
    ensures agg.sessionId != "" && !Succeeded(status) ==>
              r.error == (if agg.error.None? then Some(ExitError(status, stderr)) else agg.error)
    ensures agg.sessionId != "" && Succeeded(status) && (!agg.success || agg.agent.text != "") ==>
              r.error == agg.error
    ensures ErrorMeansFailure(agg) ==> (r.success ==> r.error.None?)
    ensures !r.success && r.error.None? ==>
              !agg.success && agg.error.None? && Succeeded(status) && agg.sessionId != ""
    ensures && r.sessionId == agg.sessionId
            && r.agentMessages == agg.agent.text && r.agentMessagesTruncated == agg.agent.truncated
            && r.allMessages == agg.archive.events && r.allMessagesTruncated == agg.archive.truncated
            && r.warnings == warnings && r.modelInfo == modelInfo
  {
    var success := agg.success && Succeeded(status);
    var error := if !Succeeded(status) && agg.error.None? then Some(ExitError(status, stderr)) else agg.error;
    var (success, error) := if agg.sessionId == "" then (false, Some(NoSessionError)) else (success, error);
    var (success, error) := if agg.agent.text == "" && success then (false, Some(NoAgentMessagesError)) else (success, error);
    DroidResult(success, agg.sessionId, agg.agent.text, agg.agent.truncated,
                agg.archive.events, agg.archive.truncated, error, warnings, modelInfo)
  }

  /** A whole run once the child has been spawned: drain stdout from the
      initial state, then apply the closing rules. */
  function Outcome(lines: seq<Line>, status: ExitStatus, stderr: string,
                   warnings: Option<string>, modelInfo: Option<string>): DroidResult
  {
    Resolve(Drain(Initial, lines), status, stderr, warnings, modelInfo)
  }

  /** What a successful run needs from the child: no `error` event, a
      zero exit, some event naming a session, some non-empty agent text. */
  predicate StreamSucceeds(lines: seq<Line>, status: ExitStatus) {
    var fragments := Fragments(lines);
    && (forall i :: 0 <= i < |lines| ==> !IsErrorLine(lines[i]))
    && Succeeded(status)
    && !(forall i :: 0 <= i < |lines| ==> SessionOf(lines[i]) == "")
    && !(forall i :: 0 <= i < |fragments| ==> fragments[i] == "")
  }

  /** A run succeeds exactly when the stream has no `error` event, the child
      exits with 0, some event names a session, and some agent fragment is
      non-empty; a successful run reports no error. */
  lemma OutcomeSuccess(lines: seq<Line>, status: ExitStatus, stderr: string,
                       warnings: Option<string>, modelInfo: Option<string>)
    ensures var r := Outcome(lines, status, stderr, warnings, modelInfo);
      r.success <==> StreamSucceeds(lines, status)
    ensures var r := Outcome(lines, status, stderr, warnings, modelInfo);
      r.success ==> r.error.None?
  {
    DrainSuccess(Initial, lines);
    DrainSessionId(Initial, lines);
    DrainAgent(Initial, lines);
    TextFoldEmpty(Initial.agent, Fragments(lines));
  }

  /** A run fails without any error text exactly when the stream has an
      `error` event, no `error` event carries a message, some event names a
      session, and the child exits with 0. */
  lemma FailureWithoutErrorExactly(lines: seq<Line>, status: ExitStatus, stderr: string,
                                   warnings: Option<string>, modelInfo: Option<string>)
    ensures var r := Outcome(lines, status, stderr, warnings, modelInfo);
      (!r.success && r.error.None?) <==>
        && !(forall i :: 0 <= i < |lines| ==> !IsErrorLine(lines[i]))
        && (forall i :: 0 <= i < |lines| ==> ErrorMessageOf(lines[i]).None?)
        && !(forall i :: 0 <= i < |lines| ==> SessionOf(lines[i]) == "")
        && Succeeded(status)
  {
    DrainSuccess(Initial, lines);
    DrainErrorNone(Initial, lines);
    DrainSessionId(Initial, lines);
  }

  /** A run can fail without any error text: an `error` event with no
      `message` fails it, and when the session id is present and the exit
      is clean no later rule supplies one. */
  lemma FailureWithoutError()
    ensures var lines := [
        Parsed(Event(Some("s-1"), ErrorEvent(None), Some(40))),
        Parsed(Event(None, Completion(Some("done")), Some(50)))];
      var r := Outcome(lines, Exited(0), "", None, None);
      !r.success && r.error.None?
  {
    var e1 := Event(Some("s-1"), ErrorEvent(None), Some(40));
    var e2 := Event(None, Completion(Some("done")), Some(50));
    var lines := [Parsed(e1), Parsed(e2)];
    var s1 := Step(Initial, lines[0]);
    assert s1.success == false && s1.error.None? && s1.sessionId == "s-1";
    var s2 := Step(s1, lines[1]);
    assert s2.error.None? && s2.sessionId == "s-1";
    assert lines[1..][1..] == [];
    assert Drain(Initial, lines) == Drain(s1, lines[1..]) == Drain(s2, []) == s2;
  }
}
